=== FILE: README.md ===
# A2UI bundle gate, modelled in Dafny

`scripts/bundle-a2ui.mjs` rebuilds the A2UI canvas bundle only when its
inputs have changed. It fingerprints the inputs: `package.json`,
`pnpm-lock.yaml`, the renderer sources under `vendor/a2ui/renderers/lit` and
the app sources under `apps/shared/OpenClawKit/Tools/CanvasA2UI`. The
fingerprint is a SHA-256 over every input file, sorted by its `/`-separated
path. It compares that fingerprint with the one stored in
`src/canvas-host/a2ui/.bundle.hash`. It then does one of three things:

- it keeps the prebuilt bundle when the sources are missing;
- it skips the build when nothing changed and the bundle exists;
- otherwise it runs `pnpm exec tsc` and then `pnpm exec rolldown`, and
  writes the new hash only after both steps succeed.

The model follows the script's own structure:

- `wrappers.dfy` (`Wrappers`): `Option` and `Result`.
- `text.dfy` (`Text`): the JavaScript string operations the script uses:
  `split`, `join`, `filter(Boolean)`, `trim` and ASCII case folding.
- `bytes.dfy` (`Bytes`): bytes, UTF-8 encoding of strings fed to the hash,
  and the lowercase hexadecimal rendering of a digest, with its inverse.
- `filetree.dfy` (`FileTree`): the filesystem is a map from paths to files
  (bytes) or directories (entry names in `readdir` order). It holds `walk`,
  as a specification function and as an imperative method that pushes onto
  a shared list.
- `sorting.dfy` (`Sorting`): the sort key and the sort of the file list
  under an abstract comparator.
- `contenthash.dfy` (`ContentHash`): `computeHash`, the byte stream it
  feeds to SHA-256, a streaming digest object, and the imperative method.
- `runner.dfy` (`Runner`): `which`, with its nested search loops and early
  return, and `run`, with its shell rule and exit-status rule.
- `gate.dfy` (`BundleGate`): the top-level decision and the hash-file
  write, as a function `Gate` and a method on a `Workspace` whose one
  mutable slot is the hash file's text.

SHA-256 is a parameter `sha`, and `localeCompare` is a parameter `leq`.
What each spawned process reports is a parameter `spawn`. The platform,
`PATH`, `PATHEXT` and the existence checks inside `which` form a `Host`
value. The top level's own `existsSync` calls (the source
directories, the bundle, the hash file) read the file tree `tree` and the
hash-file slot `stored`.

The NUL separators in the hashed stream do not make it injective. Within
one record, the NUL after the path marks where the path ends, as long as
the path holds no NUL (`ContentHash.RecordBoundary`). But file contents may
hold NUL bytes. The list `[a]`, where file `a` holds `x`, NUL, the name `c`,
NUL, `y`, encodes to the same bytes as the list `[a, c]`, where `a` holds `x`
and `c` holds `y` (`ContentHash.SeparatorsAreAmbiguous`). The script feeds
`[a, c]` in that order when the comparator puts `a` first. The model claims
no injectivity.

The model proves the hash independent of the order in which inputs are
listed and directories are read when the comparator is antisymmetric, that
is, ties no two distinct paths (`ContentHash.FingerprintOrderStable`).
Without antisymmetry the sorted list can depend on walk order
(`Sorting.TiesBreakOrderIndependence`).
`localeCompare` can return 0 for distinct strings, for example for the
composed and decomposed forms of an accented letter. The sort is stable:
of two walked paths whose keys tie, the one walked first comes first in the
sorted list (`Sorting.SortStable`), so the sorted list, and with it the
order in which files are fed to SHA-256, follows `readdir` order for them.
The model does not prove that the two feeding orders give different digests.

## Model

| member | source | states |
|---|---|---|
| Text.Split | scripts/bundle-a2ui.mjs:19 | splitting at a one-character delimiter gives at least one piece, and no piece contains the delimiter |
| Text.JoinSplit | scripts/bundle-a2ui.mjs:72 | joining the pieces of a split with the same delimiter gives back the original string |
| Text.SplitJoin | scripts/bundle-a2ui.mjs:75 | splitting a join gives back the pieces when none contains the delimiter |
| Text.JoinInjective | scripts/bundle-a2ui.mjs:72 | lists of delimiter-free pieces that join to the same string are equal |
| Text.NonEmpty | scripts/bundle-a2ui.mjs:19 | `filter(Boolean)` keeps exactly the non-empty pieces, and changes nothing when no piece is empty |
| Text.NonEmptyAppend | scripts/bundle-a2ui.mjs:19-21 | `filter(Boolean)` commutes with concatenation, so the kept pieces keep their order and repetitions |
| Text.NonEmptyOne | scripts/bundle-a2ui.mjs:19-21 | a single piece is kept exactly when it is non-empty |
| Text.JoinWith | scripts/bundle-a2ui.mjs:72 | `join`; characterised by `JoinSplit`, `SplitJoin` and `JoinInjective` |
| Text.Trim | scripts/bundle-a2ui.mjs:104 | `trim`, removing whitespace at both ends; characterised by `TrimSlice` and `TrimLine` |
| Text.TrimStartSpec | scripts/bundle-a2ui.mjs:104 | the result is a suffix of the input; everything dropped is whitespace and the result does not start with whitespace |
| Text.TrimEndSpec | scripts/bundle-a2ui.mjs:104 | the result is a prefix of the input; everything dropped is whitespace and the result does not end with whitespace |
| Text.TrimSlice | scripts/bundle-a2ui.mjs:104 | the result is a slice of the input with only whitespace outside it, and neither end of the result is whitespace |
| Text.TrimLine | scripts/bundle-a2ui.mjs:104 | trimming a whitespace-free string followed by a newline gives back that string |
| Text.LowerAscii | scripts/bundle-a2ui.mjs:40 | same length; ASCII capitals are lowered and every other character is kept |
| Bytes.EncodeChar | scripts/bundle-a2ui.mjs:76 | a character encodes to 1 to 4 bytes; 1 byte exactly for ASCII, equal to the code; every byte of a longer encoding is at least 0x80 |
| Bytes.Utf8 | scripts/bundle-a2ui.mjs:76-77 | the UTF-8 bytes that `update` feeds for a string; characterised by `EncodeChar`, `Utf8Shape` and `Utf8Append` |
| Bytes.Utf8Shape | scripts/bundle-a2ui.mjs:76-77 | the encoding has between n and 4n bytes, and holds a zero byte exactly when the string holds NUL |
| Bytes.Utf8Append | scripts/bundle-a2ui.mjs:76-77 | encoding a concatenation concatenates the encodings |
| Bytes.HexByte | scripts/bundle-a2ui.mjs:81 | one byte renders as two lowercase hex digits |
| Bytes.Hex | scripts/bundle-a2ui.mjs:81 | the hexadecimal digest has two lowercase hex digits per byte |
| Bytes.HexRoundTrip | scripts/bundle-a2ui.mjs:81 | reading back the rendering of a digest gives the digest |
| Bytes.HexInjective | scripts/bundle-a2ui.mjs:81 | different digests render to different text |
| FileTree.Walk | scripts/bundle-a2ui.mjs:54-65 | a successful walk lists only existing files at or below the entry |
| FileTree.WalkEntries | scripts/bundle-a2ui.mjs:57-60 | the walks of a directory's entries list only files strictly below it |
| FileTree.WalkEntriesErrorStays | scripts/bundle-a2ui.mjs:58-60 | once walking some entries fails, walking more entries fails with the same error |
| FileTree.WalkSucceeds | scripts/bundle-a2ui.mjs:55-57 | in a well-formed filesystem, walking an existing path never fails |
| FileTree.WalkEntriesInclude | scripts/bundle-a2ui.mjs:58-60 | the walk of a directory contains the walk of each of its entries |
| FileTree.WalkFindsFile | scripts/bundle-a2ui.mjs:54-65 | in a well-formed filesystem, every file at or below the entry is listed |
| FileTree.WalkLocal | scripts/bundle-a2ui.mjs:54-65 | the walk of an entry depends only on the nodes at and below it |
| FileTree.FileList.Push | scripts/bundle-a2ui.mjs:62 | pushing appends exactly one path |
| FileTree.WalkInto | scripts/bundle-a2ui.mjs:54-65 | on success it appends exactly the walk of the entry and keeps what the list held as a prefix, with no error; on failure it reports the walk's error and the old list is still a prefix |
| Sorting.KeyIsPlatformIndependent | scripts/bundle-a2ui.mjs:72 | splitting the native path at the native separator and joining with `/` gives the same key on every platform |
| Sorting.SortKeyInjective | scripts/bundle-a2ui.mjs:72 | distinct plain paths have distinct keys |
| Sorting.Insert | scripts/bundle-a2ui.mjs:72 | inserting adds exactly the one element |
| Sorting.SortByKey | scripts/bundle-a2ui.mjs:72 | the sorted list is a permutation of the walked list |
| Sorting.InsertSorted | scripts/bundle-a2ui.mjs:72 | under a total preorder, inserting into a sorted list keeps it sorted |
| Sorting.SortByKeySorted | scripts/bundle-a2ui.mjs:72 | under a total preorder, the sorted list is ordered by key |
| Sorting.InsertPos | scripts/bundle-a2ui.mjs:72 | the insertion point lies after every element not above the new one and before the first element above it |
| Sorting.InsertShape | scripts/bundle-a2ui.mjs:72 | inserting splits the list at the insertion point and puts the new element there |
| Sorting.SortStable | scripts/bundle-a2ui.mjs:72 | under a total preorder, an earlier walked path whose key is not above a later one's, in particular a tied one, comes before it in the sorted list |
| Sorting.TiesFollowWalkOrder | scripts/bundle-a2ui.mjs:72 | a walk of exactly two tied paths is left in walk order, under any comparator |
| Sorting.TiesBreakOrderIndependence | scripts/bundle-a2ui.mjs:68-72 | without antisymmetry the sorted list can depend on walk order, even under a total preorder |
| Sorting.SortedUnique | scripts/bundle-a2ui.mjs:72 | two sorted lists with the same elements and distinct keys, under an antisymmetric order, are equal |
| Sorting.SortOrderIndependent | scripts/bundle-a2ui.mjs:68-72 | the sorted list depends only on which files were walked, not on the order they were found |
| ContentHash.Record | scripts/bundle-a2ui.mjs:75-79 | one file's bytes: relative path, NUL, contents, NUL; characterised by `RecordBoundary` and `SeparatorsAreAmbiguous` |
| ContentHash.Encoding | scripts/bundle-a2ui.mjs:74-80 | the whole stream fed to SHA-256 for the sorted list; characterised by `EncodingAppend`, `EncodingSameContents` and `TwoFiles` |
| ContentHash.EncodingAppend | scripts/bundle-a2ui.mjs:74-80 | the stream for a list is the streams of its two parts, one after the other |
| ContentHash.EncodingSameContents | scripts/bundle-a2ui.mjs:74-80 | the stream depends only on the listed files' contents |
| ContentHash.WalkInputs | scripts/bundle-a2ui.mjs:68-71 | the walked list holds only existing files, each below one of the inputs |
| ContentHash.WalkInputsErrorStays | scripts/bundle-a2ui.mjs:69-71 | once the walk of some inputs fails, the whole computation fails with that error |
| ContentHash.Fingerprint | scripts/bundle-a2ui.mjs:67-82 | the hash is computed exactly when every input walks, fails with the walk's error otherwise, and is lowercase hexadecimal |
| ContentHash.FingerprintOrderStable | scripts/bundle-a2ui.mjs:67-82 | the same files with the same contents give the same hash, whatever the input order or directory listing order |
| ContentHash.WalkInputsLocal | scripts/bundle-a2ui.mjs:68-71 | walking the inputs depends only on the nodes at and below them |
| ContentHash.FingerprintLocal | scripts/bundle-a2ui.mjs:67-82 | the hash depends only on the nodes at and below the inputs |
| ContentHash.SeparatorsAreAmbiguous | scripts/bundle-a2ui.mjs:74-80 | for any two distinct top-level names `a` and `c`, the list `[a]` in one filesystem and the list `[a, c]` in a different one encode to the same bytes, because contents may hold NUL |
| ContentHash.RecordBoundary | scripts/bundle-a2ui.mjs:75-79 | equal records of NUL-free paths have equal path bytes and equal contents |
| ContentHash.TwoFiles | scripts/bundle-a2ui.mjs:67-82 | two top-level files give the SHA-256 of name, NUL, contents, NUL for each, in comparator order |
| ContentHash.DigestStream.Update | scripts/bundle-a2ui.mjs:76-79 | each update appends its chunk to what the stream has been fed |
| ContentHash.DigestFiles | scripts/bundle-a2ui.mjs:73-81 | the digest is the hex SHA-256 of the encoding of the sorted list |
| ContentHash.ComputeHash | scripts/bundle-a2ui.mjs:67-82 | the method's result is `Fingerprint`: walk error or hex digest |
| Runner.SearchDirs | scripts/bundle-a2ui.mjs:19 | the search directories are exactly the non-empty `PATH` pieces |
| Runner.SearchExts | scripts/bundle-a2ui.mjs:20-22 | on Windows exactly the non-empty `PATHEXT` pieces, with the default when unset; elsewhere only the empty extension |
| Runner.SearchDirsInOrder | scripts/bundle-a2ui.mjs:19 | the search directories are the `PATH` pieces in `PATH` order, with the empty ones dropped |
| Runner.SearchDirsSkipsEmpty | scripts/bundle-a2ui.mjs:19 | `PATH=a::b` searches `a` and then `b` |
| Runner.SearchExtsInOrder | scripts/bundle-a2ui.mjs:20-21 | on Windows the extensions are the `PATHEXT` pieces in `PATHEXT` order, with the empty ones dropped |
| Runner.SearchExtsDefault | scripts/bundle-a2ui.mjs:21 | on Windows with `PATHEXT` unset, the extensions are `.EXE`, `.CMD`, `.BAT`, `.COM`, in that order |
| Runner.Resolve | scripts/bundle-a2ui.mjs:18-36 | the result is the name itself or an existing candidate; `ResolveIsFirstHit` states which one |
| Runner.CandidateAt | scripts/bundle-a2ui.mjs:23-25 | the candidate for directory i and extension j comes after all candidates of earlier directories |
| Runner.FirstExisting | scripts/bundle-a2ui.mjs:23-34 | no candidate before the returned position exists, and the one at it does |
| Runner.ResolveIsFirstHit | scripts/bundle-a2ui.mjs:18-36 | `which` gives the first existing candidate in search order, or the name itself when none exists |
| Runner.HitResolves | scripts/bundle-a2ui.mjs:23-29 | a hit after misses at every earlier candidate is what `which` returns |
| Runner.MissResolves | scripts/bundle-a2ui.mjs:23-35 | with no candidate existing, `which` returns the name unchanged |
| Runner.Which | scripts/bundle-a2ui.mjs:18-36 | the nested loops with early return compute `Resolve` |
| Runner.StatusRule | scripts/bundle-a2ui.mjs:46-51 | a launch error throws; the script continues exactly on status 0; otherwise it exits with the status, using 1 for a null status, and never with 0 |
| Runner.BaseName | scripts/bundle-a2ui.mjs:40 | the last component is a separator-free suffix preceded by a separator or the start |
| Runner.LastDot | scripts/bundle-a2ui.mjs:40 | the position of the last dot, or none when there is no dot |
| Runner.ExtName | scripts/bundle-a2ui.mjs:40 | `path.extname`: non-empty exactly when the last component is not `..` and holds a dot after its first character; then a suffix of that component that starts with its only dot |
| Runner.ExtNameIsSuffix | scripts/bundle-a2ui.mjs:40 | the extension is a suffix of the whole path |
| Runner.NeedsShell | scripts/bundle-a2ui.mjs:40 | the shell flag; characterised by `ShellForExtension` and `NoShellWithoutDot` |
| Runner.ShellForExtension | scripts/bundle-a2ui.mjs:40 | on Windows a candidate found through an extension runs in the shell exactly when that extension is `.cmd`, `.bat` or `.com` in any case |
| Runner.NoShellWithoutDot | scripts/bundle-a2ui.mjs:40 | a path whose last component has no dot never runs in the shell |
| Runner.Run | scripts/bundle-a2ui.mjs:38-52 | the outcome is the status rule applied to spawning the resolved command with the shell flag |
| BundleGate.InputPaths | scripts/bundle-a2ui.mjs:95-100 | four inputs, all under the root, including both source directories |
| BundleGate.ExitCode | scripts/bundle-a2ui.mjs:49-50 | the exit code of each outcome, also the `process.exit(0)` and `process.exit(1)` at lines 89 and 92; characterised by `ExitZeroOnlyOnSuccess` |
| BundleGate.Build | scripts/bundle-a2ui.mjs:111-112 | the two build steps: a rebuild stores the hash it was given, and a failed step has a non-zero code |
| BundleGate.Gate | scripts/bundle-a2ui.mjs:85-114 | a rebuild stores the fingerprint of the inputs, and keeping or skipping needs the bundle; cases stated by `MissingSourcesFallBack`, `SkipExactlyWhenFresh`, `HashWrittenOnlyAfterBuild` and `ExitZeroOnlyOnSuccess` |
| BundleGate.BundleA2ui | scripts/bundle-a2ui.mjs:85-114 | the method ends as `Gate` says; the hash file gets the hash and a newline after a rebuild and is unchanged otherwise |
| BundleGate.MissingSourcesFallBack | scripts/bundle-a2ui.mjs:85-93 | with a source directory missing: exit 0 exactly when the bundle exists, no write, and the outcome does not depend on hashing, building or the hash file |
| BundleGate.SkipExactlyWhenFresh | scripts/bundle-a2ui.mjs:102-109 | with sources present: skip exactly when the hash file exists, its trimmed text equals the fresh hash and the bundle exists; a hash failure is the only other non-build ending |
| BundleGate.HashWrittenOnlyAfterBuild | scripts/bundle-a2ui.mjs:111-114 | the hash file is written exactly when both steps report status 0 after a stale check, and then holds the hash and a newline; otherwise it is unchanged |
| BundleGate.ExitZeroOnlyOnSuccess | scripts/bundle-a2ui.mjs:49-51 | the script exits 0 exactly when it kept the prebuilt bundle, skipped, or rebuilt |
| BundleGate.RerunSkips | scripts/bundle-a2ui.mjs:102-114 | after a rebuild, the next run skips. This holds on any tree that holds the bundle and agrees with the first run's tree at and below every input |
| BundleGate.SrcOutsideInputs | scripts/bundle-a2ui.mjs:95-100 | no input lies at or above a path under `src`, where the bundle is written |
| BundleGate.RerunAfterBuildSkips | scripts/bundle-a2ui.mjs:85-114 | a rebuild whose steps change the tree only under `src` and produce the bundle is followed by a run that skips |

## Left out

- Process plumbing of `spawnSync` (stdio inheritance, `cwd`, signals): a spawned process is represented only by what `spawn` returns for the resolved command, its arguments and the shell flag.
- BundleGate.RerunSkips: what the build steps write is not computed. The tree after the build is a parameter. It must hold the bundle and agree with the first run's tree at and below every input. `RerunAfterBuildSkips` states this for a build that changes only paths under `src`.
- SHA-256 itself: it is the parameter `sha`, and no cryptographic property is assumed.
- The locale rules of `localeCompare`: it is the parameter `leq`. Sortedness assumes a total preorder, and order independence also assumes antisymmetry.
- Sorting.SortByKey: modelled as a stable insertion sort. For a consistent comparator it agrees with any stable sort; the engine's result for an inconsistent comparator is not modelled.
- Reading `process.platform`, `PATH` and `PATHEXT`, and the `existsSync` calls inside `which`: these are fields of `Host`. The top level's own `existsSync` calls read `tree` and `stored`. An `existsSync` that throws is treated as "does not exist".
- Path normalisation by `path.join`, `path.resolve` and `path.relative`: a path is a list of components, joining appends, and the relative path strips the root prefix. `..`, `.` and repeated separators are not modelled.
- ContentHash.Encoding: a listed path that is not a file below the root contributes no bytes; the lists `computeHash` feeds never hold one (`WalkedHashable`).
- Runner.ExtName: Windows drive letters are not modelled, and neither are trailing separators, which `path.extname` skips.
- Symbolic links: `stat` is treated as reporting the node stored at the path.
- Strings with unpaired UTF-16 surrogates: characters are Unicode scalar values, and `Utf8` does not model replacement characters.
- Reading the hash file as UTF-8 text: the model keeps the decoded text in one slot. A hash file that cannot be read (a directory, for example) is not modelled.
- Exit codes outside 0–255 are not truncated.
- FileTree.Walk: a `readdir` that rejects after `stat` succeeded is not modelled. An example is a directory without read permission. The script then exits 1, but the model walks the stored entries.
- ContentHash.Fingerprint: a `readFile` that rejects is not modelled. An example is a file without read permission. The script then exits 1, but the model hashes the stored contents.
- BundleGate.BundleA2ui: a `writeFileSync` that throws after both steps succeeded is not modelled. The script then exits 1 with the hash file unchanged, but the model ends in `Rebuilt` with exit code 0.
- Console output.
- async/await: the model runs the steps sequentially, as the script does.

=== FILE: bytes.dfy ===
/** Bytes as the digest sees them: UTF-8 for the strings passed to
    `hash.update`, and the lowercase hexadecimal rendering of `digest("hex")`. */
module Bytes {
  import opened Wrappers

  newtype byte = b: int | 0 <= b < 256

  /** The UTF-8 encoding of one Unicode scalar value. */
  function EncodeChar(c: char): (r: seq<byte>)
    ensures 1 <= |r| <= 4
    ensures (c as int < 0x80) <==> |r| == 1
    ensures |r| == 1 ==> r[0] as int == c as int
    ensures |r| > 1 ==> forall i :: 0 <= i < |r| ==> r[i] >= 0x80
  {
    var cp := c as int;
    if cp < 0x80 then [cp as byte]
    else if cp < 0x800 then [(0xC0 + cp / 0x40) as byte, (0x80 + cp % 0x40) as byte]
    else if cp < 0x1_0000 then
      [(0xE0 + cp / 0x1000) as byte, (0x80 + cp / 0x40 % 0x40) as byte, (0x80 + cp % 0x40) as byte]
    else
      [(0xF0 + cp / 0x4_0000) as byte, (0x80 + cp / 0x1000 % 0x40) as byte,
       (0x80 + cp / 0x40 % 0x40) as byte, (0x80 + cp % 0x40) as byte]
  }

  /** `Buffer.from(s, "utf8")`: what `hash.update(s)` feeds for a string. */
  function Utf8(s: string): seq<byte>
  {
    if s == [] then [] else EncodeChar(s[0]) + Utf8(s[1..])
  }

  /** The encoding takes one to four bytes per character, and holds a zero
      byte exactly where the string holds NUL. */
  lemma {:induction false} Utf8Shape(s: string)
    ensures |s| <= |Utf8(s)| <= 4 * |s|
    ensures 0 in Utf8(s) <==> '\0' in s
  {
    if s != [] {
      Utf8Shape(s[1..]);
      var e := EncodeChar(s[0]);
      assert 0 in e <==> s[0] == '\0' by {
        if |e| > 1 {
          assert forall i :: 0 <= i < |e| ==> e[i] != 0;
        }
      }
      assert '\0' in s <==> s[0] == '\0' || '\0' in s[1..] by {
        assert s == [s[0]] + s[1..];
      }
    }
  }

  lemma {:induction false} Utf8Append(a: string, b: string)
    ensures Utf8(a + b) == Utf8(a) + Utf8(b)
  {
    if a == [] {
      assert a + b == b;
    } else {
      assert (a + b)[0] == a[0];
      assert (a + b)[1..] == a[1..] + b;
      Utf8Append(a[1..], b);
    }
  }

  const HexDigits: string := "0123456789abcdef"

  /** The two lowercase hexadecimal digits of one byte, high nibble first. */
  function HexByte(b: byte): (s: string)
    ensures |s| == 2 && s[0] in HexDigits && s[1] in HexDigits
  {
    [HexDigits[b as int / 16], HexDigits[b as int % 16]]
  }

  /** `digest("hex")`: two lowercase hexadecimal digits per byte. */
  function Hex(d: seq<byte>): (s: string)
    ensures |s| == 2 * |d|
    ensures forall i :: 0 <= i < |s| ==> s[i] in HexDigits
  {
    if d == [] then "" else HexByte(d[0]) + Hex(d[1..])
  }

  function DigitValue(c: char): (v: Option<nat>)
    ensures v.Some? ==> v.value < 16 && HexDigits[v.value] == c
  {
    if '0' <= c <= '9' then Some(c as int - '0' as int)
    else if 'a' <= c <= 'f' then Some(c as int - 'a' as int + 10)
    else None
  }

  /** The byte two hexadecimal digits stand for. */
  function ByteOf(hi: char, lo: char): Option<byte>
  {
    var h, l := DigitValue(hi), DigitValue(lo);
    if h.Some? && l.Some? then Some((h.value * 16 + l.value) as byte) else None
  }

  /** Reads back a lowercase hexadecimal rendering. */
  function FromHex(s: string): (r: Option<seq<byte>>)
    ensures r.Some? ==> |s| == 2 * |r.value|
  {
    if s == [] then Some([])
    else if |s| < 2 then None
    else
      match (ByteOf(s[0], s[1]), FromHex(s[2..]))
      case (Some(b), Some(rest)) => Some([b] + rest)
      case _ => None
  }

  lemma DigitValueOf(n: nat)
    requires n < 16
    ensures DigitValue(HexDigits[n]) == Some(n)
  {
  }

  lemma ByteOfHexByte(b: byte)
    ensures ByteOf(HexByte(b)[0], HexByte(b)[1]) == Some(b)
  {
    var hi, lo := b as int / 16, b as int % 16;
    assert hi * 16 + lo == b as int && hi < 16;
    var s := HexByte(b);
    assert s[0] == HexDigits[hi] && s[1] == HexDigits[lo];
    DigitValueOf(hi);
    DigitValueOf(lo);
  }

  /** Reading back a digest's hexadecimal rendering gives the digest. */
  lemma {:induction false} HexRoundTrip(d: seq<byte>)
    ensures FromHex(Hex(d)) == Some(d)
  {
    if d != [] {
      var s := Hex(d);
      assert s[0] == HexByte(d[0])[0] && s[1] == HexByte(d[0])[1];
      assert s[2..] == Hex(d[1..]);
      ByteOfHexByte(d[0]);
      HexRoundTrip(d[1..]);
      assert [d[0]] + d[1..] == d;
    }
  }

  /** Different digests render differently. */
  lemma HexInjective(d: seq<byte>, e: seq<byte>)
    requires Hex(d) == Hex(e)
    ensures d == e
  {
    HexRoundTrip(d);
    HexRoundTrip(e);
  }
}

=== FILE: contenthash.dfy ===
/** `computeHash`: walk the inputs, sort the files, and feed each file's
    relative path and contents, each followed by a NUL, into SHA-256. */
module ContentHash {
  import opened Wrappers
  import opened Bytes
  import opened Text
  import opened FileTree
  import opened Sorting

  /** The path of a file below the root relative to the root, components joined by `/`. */
  function RelPath(root: Path, f: Path): string
    requires root <= f
  {
    JoinWith('/', f[|root|..])
  }

  ghost predicate Hashable(fs: FileSystem, root: Path, files: seq<Path>)
  {
    forall f :: f in files ==> f in fs && fs[f].File? && root <= f
  }

  /** What one file feeds the digest: its relative path, a NUL, its bytes, a NUL. */
  function Record(fs: FileSystem, root: Path, f: Path): seq<byte>
    requires f in fs && fs[f].File? && root <= f
  {
    Utf8(RelPath(root, f)) + Utf8("\0") + fs[f].contents + Utf8("\0")
  }

  /** What one listed path feeds: its record when it is a file below the
      root, nothing otherwise. Every list `computeHash` feeds has only such
      files (`WalkedHashable`), so the second case never arises there. */
  function Fed(fs: FileSystem, root: Path, f: Path): seq<byte>
  {
    if f in fs && fs[f].File? && root <= f then Record(fs, root, f) else []
  }

  /** Everything fed to the digest for `files`, in that order. */
  function Encoding(fs: FileSystem, root: Path, files: seq<Path>): seq<byte>
  {
    if files == [] then []
    else Encoding(fs, root, files[..|files| - 1]) + Fed(fs, root, files[|files| - 1])
  }

  /** The stream for a list is the streams of its parts, one after the other. */
  lemma {:induction false} EncodingAppend(fs: FileSystem, root: Path, a: seq<Path>, b: seq<Path>)
    ensures Encoding(fs, root, a + b) == Encoding(fs, root, a) + Encoding(fs, root, b)
  {
    if b == [] {
      assert a + b == a;
    } else {
      var init, last := b[..|b| - 1], b[|b| - 1];
      assert (a + b)[..|a + b| - 1] == a + init && (a + b)[|a + b| - 1] == last;
      calc {
        Encoding(fs, root, a + b);
        Encoding(fs, root, a + init) + Fed(fs, root, last);
        { EncodingAppend(fs, root, a, init); }
        Encoding(fs, root, a) + Encoding(fs, root, init) + Fed(fs, root, last);
        Encoding(fs, root, a) + Encoding(fs, root, b);
      }
    }
  }

  /** The stream depends only on the listed files' contents, not on the rest
      of the filesystem nor on the order of directory listings. */
  lemma {:induction false} EncodingSameContents(fs1: FileSystem, fs2: FileSystem, root: Path, files: seq<Path>)
    requires Hashable(fs1, root, files) && Hashable(fs2, root, files)
    requires forall f :: f in files ==> fs1[f].contents == fs2[f].contents
    ensures Encoding(fs1, root, files) == Encoding(fs2, root, files)
  {
    if files != [] {
      var init, f := files[..|files| - 1], files[|files| - 1];
      assert f in files;
      assert forall g :: g in init ==> g in files;
      EncodingSameContents(fs1, fs2, root, init);
    }
  }

  lemma EncodingStep(fs: FileSystem, root: Path, files: seq<Path>, j: nat)
    requires Hashable(fs, root, files) && j < |files|
    ensures files[j] in fs && fs[files[j]].File? && root <= files[j]
    ensures Encoding(fs, root, files[..j + 1]) == Encoding(fs, root, files[..j]) + Record(fs, root, files[j])
  {
    assert files[j] in files;
    assert files[..j + 1][..j] == files[..j];
  }

  /** Walking every input in turn into one shared list. */
  function WalkInputs(fs: FileSystem, inputs: seq<Path>): (r: Result<seq<Path>, IoError>)
    ensures r.Ok? ==> forall f :: f in r.value ==>
      f in fs && fs[f].File? && exists i :: 0 <= i < |inputs| && inputs[i] <= f
  {
    if inputs == [] then Ok([])
    else
      var prior := WalkInputs(fs, inputs[..|inputs| - 1]);
      if prior.Err? then prior
      else
        var last := Walk(fs, inputs[|inputs| - 1]);
        if last.Err? then last
        else
          assert forall f :: f in last.value ==> inputs[|inputs| - 1] <= f;
          Ok(prior.value + last.value)
  }

  lemma {:induction false} WalkInputsErrorStays(fs: FileSystem, inputs: seq<Path>, k: nat)
    requires k <= |inputs|
    requires WalkInputs(fs, inputs[..k]).Err?
    ensures WalkInputs(fs, inputs) == WalkInputs(fs, inputs[..k])
    decreases |inputs| - k
  {
    if k < |inputs| {
      var longer := inputs[..k + 1];
      assert longer[..|longer| - 1] == inputs[..k];
      WalkInputsErrorStays(fs, inputs, k + 1);
    } else {
      assert inputs[..k] == inputs;
    }
  }

  lemma WalkedHashable(fs: FileSystem, root: Path, inputs: seq<Path>, files: seq<Path>)
    requires forall p :: p in inputs ==> root <= p
    requires WalkInputs(fs, inputs) == Ok(files)
    ensures Hashable(fs, root, files)
  {
    forall f | f in files ensures root <= f {
      var i :| 0 <= i < |inputs| && inputs[i] <= f;
      assert inputs[i] in inputs;
    }
  }

  lemma PermutationHashable(fs: FileSystem, root: Path, files: seq<Path>, sorted: seq<Path>)
    requires Hashable(fs, root, files)
    requires multiset(sorted) == multiset(files)
    ensures Hashable(fs, root, sorted)
  {
    forall f | f in sorted ensures f in files {
      assert f in multiset(files);
    }
  }

  /** The value `computeHash(inputPaths)` resolves to, or the error it rejects with;
      `sha` is SHA-256 and `leq` the comparator of the sort. */
  function Fingerprint(fs: FileSystem, root: Path, inputs: seq<Path>,
                       sha: seq<byte> -> seq<byte>, leq: (string, string) -> bool): (r: Result<string, IoError>)
    requires forall p :: p in inputs ==> root <= p
    ensures r.Ok? <==> WalkInputs(fs, inputs).Ok?
    ensures r.Err? ==> r.error == WalkInputs(fs, inputs).error
    ensures r.Ok? ==> forall i :: 0 <= i < |r.value| ==> r.value[i] in HexDigits
  {
    match WalkInputs(fs, inputs)
    case Err(e) => Err(e)
    case Ok(files) =>
      Ok(Hex(sha(Encoding(fs, root, SortByKey(files, leq)))))
  }

  /** Same files with the same contents give the same fingerprint, whatever
      order the inputs were listed or the directories were read in. */
  lemma FingerprintOrderStable(fs1: FileSystem, fs2: FileSystem, root: Path,
                               inputs1: seq<Path>, inputs2: seq<Path>,
                               sha: seq<byte> -> seq<byte>, leq: (string, string) -> bool)
    requires TotalPreorder(leq) && Antisymmetric(leq)
    requires forall p :: p in inputs1 ==> root <= p
    requires forall p :: p in inputs2 ==> root <= p
    requires WalkInputs(fs1, inputs1).Ok? && WalkInputs(fs2, inputs2).Ok?
    requires multiset(WalkInputs(fs1, inputs1).value) == multiset(WalkInputs(fs2, inputs2).value)
    requires forall f :: f in WalkInputs(fs1, inputs1).value ==> PlainPath(f) && f in fs2 && fs1[f] == fs2[f]
    ensures Fingerprint(fs1, root, inputs1, sha, leq) == Fingerprint(fs2, root, inputs2, sha, leq)
  {
    var w1, w2 := WalkInputs(fs1, inputs1).value, WalkInputs(fs2, inputs2).value;
    SortOrderIndependent(w1, w2, leq);
    var sorted := SortByKey(w1, leq);
    WalkedHashable(fs1, root, inputs1, w1);
    WalkedHashable(fs2, root, inputs2, w2);
    PermutationHashable(fs1, root, w1, sorted);
    PermutationHashable(fs2, root, w2, sorted);
    forall f | f in sorted ensures fs1[f].contents == fs2[f].contents {
      assert f in multiset(w1);
    }
    EncodingSameContents(fs1, fs2, root, sorted);
  }

  /** The walk of the inputs reads nothing outside their subtrees. */
  lemma {:induction false} WalkInputsLocal(fs1: FileSystem, fs2: FileSystem, inputs: seq<Path>)
    requires forall i :: 0 <= i < |inputs| ==> AgreeBelow(fs1, fs2, inputs[i])
    ensures WalkInputs(fs1, inputs) == WalkInputs(fs2, inputs)
  {
    if inputs != [] {
      WalkInputsLocal(fs1, fs2, inputs[..|inputs| - 1]);
      WalkLocal(fs1, fs2, inputs[|inputs| - 1]);
    }
  }

  /** The hash depends only on what lies at or below the inputs: a change
      anywhere else, such as a new bundle, leaves it as it was. */
  lemma FingerprintLocal(fs1: FileSystem, fs2: FileSystem, root: Path, inputs: seq<Path>,
                         sha: seq<byte> -> seq<byte>, leq: (string, string) -> bool)
    requires forall p :: p in inputs ==> root <= p
    requires forall i :: 0 <= i < |inputs| ==> AgreeBelow(fs1, fs2, inputs[i])
    ensures Fingerprint(fs1, root, inputs, sha, leq) == Fingerprint(fs2, root, inputs, sha, leq)
  {
    WalkInputsLocal(fs1, fs2, inputs);
    if WalkInputs(fs1, inputs).Ok? {
      var files := WalkInputs(fs1, inputs).value;
      var sorted := SortByKey(files, leq);
      WalkedHashable(fs1, root, inputs, files);
      WalkedHashable(fs2, root, inputs, files);
      PermutationHashable(fs1, root, files, sorted);
      PermutationHashable(fs2, root, files, sorted);
      forall f | f in sorted ensures fs1[f].contents == fs2[f].contents {
        assert f in multiset(files);
        var i :| 0 <= i < |inputs| && inputs[i] <= f;
        assert Lookup(fs1, f) == Lookup(fs2, f);
      }
      EncodingSameContents(fs1, fs2, root, sorted);
    }
  }

  lemma Utf8OneAscii(c: char)
    requires c as int < 0x80
    ensures Utf8([c]) == [c as int as byte]
  {
    assert [c][1..] == [];
  }

  /** The NUL separators do not make the stream injective: a file `a`
      holding `x`, NUL, the name `c`, NUL, `y` feeds the same bytes as a
      file `a` holding `x` next to a file `c` holding `y` (for instance `a`
      holding "b\0c\0" against `a` holding "b" and an empty `c`). */
  lemma SeparatorsAreAmbiguous(root: Path, nameA: Name, nameC: Name, x: seq<byte>, y: seq<byte>)
    requires nameA != nameC
    ensures var a, c := root + [nameA], root + [nameC];
      var one := map[a := File(x + [0] + Utf8(nameC) + [0] + y)];
      var two := map[a := File(x), c := File(y)];
      && one != two
      && Hashable(one, root, [a]) && Hashable(two, root, [a, c])
      && Encoding(one, root, [a]) == Encoding(two, root, [a, c])
  {
    var a, c := root + [nameA], root + [nameC];
    assert a != c by {
      assert a[|root|] != c[|root|];
    }
    var one := map[a := File(x + [0] + Utf8(nameC) + [0] + y)];
    var two := map[a := File(x), c := File(y)];
    assert one != two by {
      assert c in two && c !in one;
    }
    assert Hashable(two, root, [a, c]) by {
      assert forall f :: f in [a, c] ==> f == a || f == c;
    }
    EncodingSingle(one, root, a);
    RecordOfTopLevel(one, root, nameA);
    EncodeTwoFiles(two, root, nameA, nameC);
    SplitRecord(Utf8(nameA), x, Utf8(nameC), y);
  }

  lemma SplitRecord(u: seq<byte>, x: seq<byte>, v: seq<byte>, y: seq<byte>)
    ensures u + [0] + (x + [0] + v + [0] + y) + [0] == u + [0] + x + [0] + v + [0] + y + [0]
  {
  }

  /** The position of the first NUL byte, or the length when there is none. */
  function FirstNul(s: seq<byte>): (k: nat)
    ensures k <= |s|
    ensures forall i :: 0 <= i < k ==> s[i] != 0
    ensures k < |s| ==> s[k] == 0
  {
    if s == [] || s[0] == 0 then 0 else 1 + FirstNul(s[1..])
  }

  lemma {:induction false} FirstNulAfter(u: seq<byte>, rest: seq<byte>)
    requires 0 !in u
    ensures FirstNul(u + [0] + rest) == |u|
  {
    if u != [] {
      assert (u + [0] + rest)[1..] == u[1..] + [0] + rest;
      FirstNulAfter(u[1..], rest);
    }
  }

  /** Within one record the NUL after the path marks where the path ends, as
      long as the path holds no NUL: equal records then have equal path
      bytes and equal contents, so a file "ab" holding "c" and a file "a"
      holding "bc" feed different bytes. */
  lemma RecordBoundary(fs1: FileSystem, f1: Path, fs2: FileSystem, f2: Path, root: Path)
    requires f1 in fs1 && fs1[f1].File? && root <= f1
    requires f2 in fs2 && fs2[f2].File? && root <= f2
    requires '\0' !in RelPath(root, f1) && '\0' !in RelPath(root, f2)
    requires Record(fs1, root, f1) == Record(fs2, root, f2)
    ensures Utf8(RelPath(root, f1)) == Utf8(RelPath(root, f2))
    ensures fs1[f1].contents == fs2[f2].contents
  {
    Utf8OneAscii('\0');
    Utf8Shape(RelPath(root, f1));
    Utf8Shape(RelPath(root, f2));
    NulTerminated(Utf8(RelPath(root, f1)), fs1[f1].contents, Utf8(RelPath(root, f2)), fs2[f2].contents);
  }

  lemma NulTerminated(u1: seq<byte>, c1: seq<byte>, u2: seq<byte>, c2: seq<byte>)
    requires 0 !in u1 && 0 !in u2
    requires u1 + [0] + c1 + [0] == u2 + [0] + c2 + [0]
    ensures u1 == u2 && c1 == c2
  {
    var r := u1 + [0] + c1 + [0];
    assert r == u1 + [0] + (c1 + [0]) == u2 + [0] + (c2 + [0]);
    FirstNulAfter(u1, c1 + [0]);
    FirstNulAfter(u2, c2 + [0]);
    assert u1 == r[..|u1|] == u2;
    assert c1 == r[|u1| + 1..|r| - 1] == c2;
  }

  /** The record of a file directly under the root. */
  lemma RecordOfTopLevel(fs: FileSystem, root: Path, name: Name)
    requires root + [name] in fs && fs[root + [name]].File?
    ensures Record(fs, root, root + [name]) == Utf8(name) + [0] + fs[root + [name]].contents + [0]
  {
    assert (root + [name])[|root|..] == [name];
    Utf8OneAscii('\0');
  }

  lemma WalkTwoFiles(fs: FileSystem, a: Path, b: Path)
    requires a in fs && fs[a].File? && b in fs && fs[b].File?
    ensures WalkInputs(fs, [a, b]) == Ok([a, b])
  {
    var none: seq<Path> := [];
    assert [a, b][..1] == [a] && [a][..0] == none;
    assert Walk(fs, a) == Ok([a]) && Walk(fs, b) == Ok([b]);
    assert none + [a] == [a];
    assert WalkInputs(fs, [a]) == Ok([a]);
    assert [a] + [b] == [a, b];
  }

  lemma EncodeTwoFiles(fs: FileSystem, root: Path, nameA: Name, nameB: Name)
    requires root + [nameA] in fs && fs[root + [nameA]].File?
    requires root + [nameB] in fs && fs[root + [nameB]].File?
    ensures Encoding(fs, root, [root + [nameA], root + [nameB]])
      == Utf8(nameA) + [0] + fs[root + [nameA]].contents + [0]
       + Utf8(nameB) + [0] + fs[root + [nameB]].contents + [0]
  {
    var a, b := root + [nameA], root + [nameB];
    RecordOfTopLevel(fs, root, nameA);
    RecordOfTopLevel(fs, root, nameB);
    EncodingSingle(fs, root, a);
    assert [a, b][..1] == [a];
    assert Encoding(fs, root, [a, b]) == Record(fs, root, a) + Record(fs, root, b);
    AppendRecord(Record(fs, root, a), Utf8(nameB), fs[b].contents);
  }

  lemma EncodingSingle(fs: FileSystem, root: Path, f: Path)
    requires f in fs && fs[f].File? && root <= f
    ensures Encoding(fs, root, [f]) == Record(fs, root, f)
  {
    var none: seq<Path> := [];
    assert [f][..0] == none;
  }

  lemma AppendRecord(prefix: seq<byte>, name: seq<byte>, contents: seq<byte>)
    ensures prefix + (name + [0] + contents + [0]) == prefix + name + [0] + contents + [0]
  {
  }

  /** Two distinct files directly under the root, listed in the order the
      comparator puts them, give the SHA-256 of the first name, NUL, its
      bytes, NUL, then the same for the second: for `fileA` holding "x" and
      `fileB` holding "y" that is the digest of "fileA\0x\0fileB\0y\0". */
  lemma TwoFiles(root: Path, nameA: Name, x: seq<byte>, nameB: Name, y: seq<byte>,
                 sha: seq<byte> -> seq<byte>, leq: (string, string) -> bool)
    requires nameA != nameB
    requires leq(SortKey(root + [nameA]), SortKey(root + [nameB]))
    ensures var a, b := root + [nameA], root + [nameB];
      Fingerprint(map[a := File(x), b := File(y)], root, [a, b], sha, leq)
        == Ok(Hex(sha(Utf8(nameA) + [0] + x + [0] + Utf8(nameB) + [0] + y + [0])))
  {
    var a, b := root + [nameA], root + [nameB];
    var fs := map[a := File(x), b := File(y)];
    assert a != b by {
      assert a[|root|] != b[|root|];
    }
    WalkTwoFiles(fs, a, b);
    SortTwo(a, b, leq);
    EncodeTwoFiles(fs, root, nameA, nameB);
    assert Fingerprint(fs, root, [a, b], sha, leq) == Ok(Hex(sha(Encoding(fs, root, [a, b]))));
  }

  /** `createHash("sha256")`: a digest fed piece by piece. The model keeps
      the bytes fed so far; `sha` is SHA-256 of a whole byte string. */
  class DigestStream {
    const sha: seq<byte> -> seq<byte>
    var fed: seq<byte>

    constructor (sha: seq<byte> -> seq<byte>)
      ensures this.sha == sha && fed == []
    {
      this.sha := sha;
      fed := [];
    }

    /** `hash.update(chunk)` */
    method Update(chunk: seq<byte>)
      modifies this
      ensures fed == old(fed) + chunk
    {
      fed := fed + chunk;
    }

    /** `hash.digest("hex")` */
    function HexDigest(): string
      reads this
    {
      Hex(sha(fed))
    }
  }

  lemma FourChunks(prefix: seq<byte>, a: seq<byte>, b: seq<byte>, c: seq<byte>, d: seq<byte>)
    ensures prefix + a + b + c + d == prefix + (a + b + c + d)
  {
  }

  /** The second half of `computeHash`: feed each file of the sorted list to
      a fresh SHA-256 stream and render the digest in hexadecimal. */
  method DigestFiles(fs: FileSystem, root: Path, sorted: seq<Path>, sha: seq<byte> -> seq<byte>)
    returns (hex: string)
    requires Hashable(fs, root, sorted)
    ensures hex == Hex(sha(Encoding(fs, root, sorted)))
  {
    var hash := new DigestStream(sha);
    for j := 0 to |sorted|
      invariant hash.fed == Encoding(fs, root, sorted[..j])
    {
      var f := sorted[j];
      EncodingStep(fs, root, sorted, j);
      ghost var before := hash.fed;
      var rel, nul := Utf8(RelPath(root, f)), Utf8("\0");
      hash.Update(rel);
      hash.Update(nul);
      hash.Update(fs[f].contents);
      hash.Update(nul);
      FourChunks(before, rel, nul, fs[f].contents, nul);
    }
    assert sorted[..|sorted|] == sorted;
    hex := hash.HexDigest();
  }

  /** `computeHash(inputPaths)`, with `root` the repository root every input lies under. */
  method ComputeHash(fs: FileSystem, root: Path, inputs: seq<Path>,
                     sha: seq<byte> -> seq<byte>, leq: (string, string) -> bool)
    returns (r: Result<string, IoError>)
    requires forall p :: p in inputs ==> root <= p
    ensures r == Fingerprint(fs, root, inputs, sha, leq)
  {
    var files := new FileList();
    for i := 0 to |inputs|
      invariant WalkInputs(fs, inputs[..i]).Ok?
      invariant files.items == WalkInputs(fs, inputs[..i]).value
    {
      var err := WalkInto(fs, inputs[i], files);
      assert inputs[..i + 1][..i] == inputs[..i];
      if err.Some? {
        WalkInputsErrorStays(fs, inputs, i + 1);
        return Err(err.value);
      }
    }
    assert inputs[..|inputs|] == inputs;
    ghost var walked := files.items;
    WalkedHashable(fs, root, inputs, walked);
    files.items := SortByKey(files.items, leq);
    var sorted := files.items;
    PermutationHashable(fs, root, walked, sorted);
    var hex := DigestFiles(fs, root, sorted, sha);
    r := Ok(hex);
  }
}

=== FILE: filetree.dfy ===
/** The filesystem the script reads, and `walk`: the depth-first expansion
    of a file or directory into the list of files below it. */
module FileTree {
  import opened Wrappers
  import opened Bytes

  /** One path component; `readdir` returns these. */
  type Name = string
  /** A path as its components; `path.join(entry, e)` is `entry + [e]`. */
  type Path = seq<Name>

  /** What `stat` finds at a path: a file with its bytes, or a directory
      with its entry names in the order `readdir` returns them. */
  datatype Node = File(contents: seq<byte>) | Dir(entries: seq<Name>)

  type FileSystem = map<Path, Node>

  /** The rejection of `stat` on a path that does not exist. */
  datatype IoError = NotFound(path: Path)

  /** The paths at or below `p`. */
  ghost function Subtree(fs: FileSystem, p: Path): set<Path>
  {
    set q | q in fs && p <= q
  }

  lemma SubtreeShrinks(fs: FileSystem, p: Path, n: Name)
    requires p in fs
    ensures Subtree(fs, p + [n]) < Subtree(fs, p)
  {
    forall q | q in Subtree(fs, p + [n]) ensures q in Subtree(fs, p) {
      assert p <= p + [n] <= q;
    }
    assert p in Subtree(fs, p) && p !in Subtree(fs, p + [n]);
  }

  /** `walk(entry, [])`: the files at or below `entry`, directories expanded
      depth-first in `readdir` order; the first path `stat` cannot find
      rejects the whole walk. */
  function Walk(fs: FileSystem, entry: Path): (r: Result<seq<Path>, IoError>)
    ensures r.Ok? ==> forall f :: f in r.value ==> f in fs && fs[f].File? && entry <= f
    decreases Subtree(fs, entry), 1, 0
  {
    if entry !in fs then Err(NotFound(entry))
    else match fs[entry]
      case File(_) => Ok([entry])
      case Dir(names) => WalkEntries(fs, entry, names)
  }

  /** The walks of `dir`'s entries `names`, one after the other. */
  function WalkEntries(fs: FileSystem, dir: Path, names: seq<Name>): (r: Result<seq<Path>, IoError>)
    requires dir in fs
    ensures r.Ok? ==> forall f :: f in r.value ==> f in fs && fs[f].File? && dir < f
    decreases Subtree(fs, dir), 0, |names|
  {
    if names == [] then Ok([])
    else
      var prior := WalkEntries(fs, dir, names[..|names| - 1]);
      if prior.Err? then prior
      else
        var child := dir + [names[|names| - 1]];
        SubtreeShrinks(fs, dir, names[|names| - 1]);
        var last := Walk(fs, child);
        if last.Err? then last
        else
          assert forall f :: f in last.value ==> dir < child <= f;
          Ok(prior.value + last.value)
  }

  /** Once the walk of some entries fails, the walk of more entries fails the same way. */
  lemma {:induction false} WalkEntriesErrorStays(fs: FileSystem, dir: Path, names: seq<Name>, k: nat)
    requires dir in fs && k <= |names|
    requires WalkEntries(fs, dir, names[..k]).Err?
    ensures WalkEntries(fs, dir, names) == WalkEntries(fs, dir, names[..k])
    decreases |names| - k
  {
    if k < |names| {
      var longer := names[..k + 1];
      assert longer[..|longer| - 1] == names[..k];
      WalkEntriesErrorStays(fs, dir, names, k + 1);
    } else {
      assert names[..k] == names;
    }
  }

  /** What `stat` finds at `q`, or `None` when it finds nothing. */
  function Lookup(fs: FileSystem, q: Path): Option<Node>
  {
    if q in fs then Some(fs[q]) else None
  }

  /** The two filesystems hold the same nodes at `p` and at every path below it. */
  ghost predicate AgreeBelow(fs1: FileSystem, fs2: FileSystem, p: Path)
  {
    forall q :: p <= q ==> Lookup(fs1, q) == Lookup(fs2, q)
  }

  /** A walk reads nothing outside the subtree of its entry: changes
      elsewhere leave it as it was. */
  lemma {:induction false} WalkLocal(fs1: FileSystem, fs2: FileSystem, p: Path)
    requires AgreeBelow(fs1, fs2, p)
    ensures Walk(fs1, p) == Walk(fs2, p)
    decreases Subtree(fs1, p), 1, 0
  {
    assert Lookup(fs1, p) == Lookup(fs2, p);
    if p in fs1 && fs1[p].Dir? {
      WalkEntriesLocal(fs1, fs2, p, fs1[p].entries);
    }
  }

  lemma {:induction false} WalkEntriesLocal(fs1: FileSystem, fs2: FileSystem, dir: Path, names: seq<Name>)
    requires dir in fs1 && AgreeBelow(fs1, fs2, dir)
    ensures dir in fs2 && WalkEntries(fs1, dir, names) == WalkEntries(fs2, dir, names)
    decreases Subtree(fs1, dir), 0, |names|
  {
    assert Lookup(fs1, dir) == Lookup(fs2, dir);
    if names != [] {
      WalkEntriesLocal(fs1, fs2, dir, names[..|names| - 1]);
      var child := dir + [names[|names| - 1]];
      SubtreeShrinks(fs1, dir, names[|names| - 1]);
      assert AgreeBelow(fs1, fs2, child) by {
        forall q | child <= q ensures Lookup(fs1, q) == Lookup(fs2, q) {
          assert dir <= child <= q;
        }
      }
      WalkLocal(fs1, fs2, child);
    }
  }

  /** A filesystem as `stat` and `readdir` see it: every entry a directory
      lists exists, and every path other than the root is listed by its
      parent directory. */
  ghost predicate WellFormed(fs: FileSystem)
  {
    && (forall p, i :: p in fs && fs[p].Dir? && 0 <= i < |fs[p].entries| ==> p + [fs[p].entries[i]] in fs)
    && (forall p, n :: p + [n] in fs ==> p in fs && fs[p].Dir? && n in fs[p].entries)
  }

  lemma {:induction false} AncestorExists(fs: FileSystem, q: Path, k: nat)
    requires WellFormed(fs) && q in fs && k <= |q|
    ensures q[..k] in fs
    decreases |q| - k
  {
    if k < |q| {
      AncestorExists(fs, q, k + 1);
      assert q[..k + 1] == q[..k] + [q[k]];
    } else {
      assert q[..k] == q;
    }
  }

  lemma ListedEntryExists(fs: FileSystem, dir: Path, n: Name)
    requires WellFormed(fs) && dir in fs && fs[dir].Dir? && n in fs[dir].entries
    ensures dir + [n] in fs
  {
    var i :| 0 <= i < |fs[dir].entries| && fs[dir].entries[i] == n;
  }

  /** In a well-formed filesystem, walking an existing path never fails. */
  lemma {:induction false} WalkSucceeds(fs: FileSystem, entry: Path)
    requires WellFormed(fs) && entry in fs
    ensures Walk(fs, entry).Ok?
    decreases Subtree(fs, entry), 1, 0
  {
    match fs[entry]
    case File(_) =>
    case Dir(names) => WalkEntriesSucceed(fs, entry, names);
  }

  lemma {:induction false} WalkEntriesSucceed(fs: FileSystem, dir: Path, names: seq<Name>)
    requires WellFormed(fs) && dir in fs && fs[dir].Dir?
    requires forall n :: n in names ==> n in fs[dir].entries
    ensures WalkEntries(fs, dir, names).Ok?
    decreases Subtree(fs, dir), 0, |names|
  {
    if names != [] {
      var n := names[|names| - 1];
      var init := names[..|names| - 1];
      assert forall m :: m in init ==> m in names;
      WalkEntriesSucceed(fs, dir, init);
      ListedEntryExists(fs, dir, n);
      SubtreeShrinks(fs, dir, n);
      WalkSucceeds(fs, dir + [n]);
    }
  }

  /** The walk of a directory's entries contains the walk of each of them. */
  lemma {:induction false} WalkEntriesInclude(fs: FileSystem, dir: Path, names: seq<Name>, i: nat)
    requires dir in fs && i < |names|
    requires WalkEntries(fs, dir, names).Ok?
    ensures Walk(fs, dir + [names[i]]).Ok?
    ensures forall f :: f in Walk(fs, dir + [names[i]]).value ==> f in WalkEntries(fs, dir, names).value
    decreases |names|
  {
    var init := names[..|names| - 1];
    if i < |names| - 1 {
      WalkEntriesInclude(fs, dir, init, i);
      assert init[i] == names[i];
    }
  }

  /** Below an existing path lies one of its directory's listed entries on
      the way to every deeper existing path. */
  lemma ChildToward(fs: FileSystem, entry: Path, q: Path) returns (i: nat)
    requires WellFormed(fs) && entry in fs && q in fs && entry < q
    ensures fs[entry].Dir? && i < |fs[entry].entries|
    ensures entry + [fs[entry].entries[i]] <= q && entry + [fs[entry].entries[i]] in fs
  {
    var c := q[..|entry| + 1];
    AncestorExists(fs, q, |entry| + 1);
    ParentLists(fs, c);
    assert c[..|c| - 1] == entry;
    assert c == entry + [c[|c| - 1]] && c <= q;
    i :| 0 <= i < |fs[entry].entries| && fs[entry].entries[i] == c[|c| - 1];
  }

  lemma ParentLists(fs: FileSystem, c: Path)
    requires WellFormed(fs) && c in fs && c != []
    ensures c[..|c| - 1] in fs && fs[c[..|c| - 1]].Dir? && c[|c| - 1] in fs[c[..|c| - 1]].entries
  {
    assert c == c[..|c| - 1] + [c[|c| - 1]];
  }

  /** In a well-formed filesystem, the walk of a path lists every file at or below it. */
  lemma {:induction false} WalkFindsFile(fs: FileSystem, entry: Path, q: Path)
    requires WellFormed(fs) && entry in fs
    requires q in fs && fs[q].File? && entry <= q
    ensures Walk(fs, entry).Ok? && q in Walk(fs, entry).value
    decreases Subtree(fs, entry)
  {
    if entry != q {
      var i := ChildToward(fs, entry, q);
      var names := fs[entry].entries;
      SubtreeShrinks(fs, entry, names[i]);
      WalkFindsFile(fs, entry + [names[i]], q);
      WalkSucceeds(fs, entry);
      WalkEntriesInclude(fs, entry, names, i);
    }
  }

  /** The list `walk` pushes onto. */
  class FileList {
    var items: seq<Path>

    constructor ()
      ensures items == []
    {
      items := [];
    }

    /** `out.push(p)` */
    method Push(p: Path)
      modifies this
      ensures items == old(items) + [p]
    {
      items := items + [p];
    }
  }

  /** `walk(entry, out)`: appends the files at or below `entry` to `out`,
      keeping what `out` already holds as a prefix. */
  method WalkInto(fs: FileSystem, entry: Path, out: FileList) returns (err: Option<IoError>)
    modifies out
    ensures Walk(fs, entry).Ok? ==> err == None && out.items == old(out.items) + Walk(fs, entry).value
    ensures Walk(fs, entry).Err? ==> err == Some(Walk(fs, entry).error) && old(out.items) <= out.items
    decreases Subtree(fs, entry)
  {
    if entry !in fs {
      return Some(NotFound(entry));
    }
    match fs[entry] {
      case File(_) =>
        out.Push(entry);
        err := None;
      case Dir(names) =>
        var i := 0;
        while i < |names|
          invariant 0 <= i <= |names|
          invariant WalkEntries(fs, entry, names[..i]).Ok?
          invariant out.items == old(out.items) + WalkEntries(fs, entry, names[..i]).value
        {
          SubtreeShrinks(fs, entry, names[i]);
          ghost var before := out.items;
          err := WalkInto(fs, entry + [names[i]], out);
          assert names[..i + 1][..i] == names[..i];
          if err.Some? {
            WalkEntriesErrorStays(fs, entry, names, i + 1);
            assert old(out.items) <= before <= out.items;
            return;
          }
          i := i + 1;
        }
        assert names[..i] == names;
        err := None;
    }
  }
}

=== FILE: gate.dfy ===
/** The top level of the bundle script: fall back to a prebuilt bundle when
    the sources are missing, skip when the stored content hash still matches
    and the bundle exists, otherwise type-check, bundle and store the new
    hash. */
module BundleGate {
  import opened Wrappers
  import opened Text
  import opened Bytes
  import opened FileTree
  import opened ContentHash
  import opened Runner

  /** The renderer sources: `vendor/a2ui/renderers/lit`. */
  function RendererDir(root: Path): Path
  {
    root + ["vendor", "a2ui", "renderers", "lit"]
  }

  /** The app sources: `apps/shared/OpenClawKit/Tools/CanvasA2UI`. */
  function AppDir(root: Path): Path
  {
    root + ["apps", "shared", "OpenClawKit", "Tools", "CanvasA2UI"]
  }

  /** The bundle the build produces: `src/canvas-host/a2ui/a2ui.bundle.js`. */
  function OutputFile(root: Path): Path
  {
    root + ["src", "canvas-host", "a2ui", "a2ui.bundle.js"]
  }

  /** The inputs of the fingerprint, in the order they are walked. */
  function InputPaths(root: Path): (inputs: seq<Path>)
    ensures |inputs| == 4
    ensures forall p :: p in inputs ==> root <= p
    ensures RendererDir(root) in inputs && AppDir(root) in inputs
  {
    [root + ["package.json"], root + ["pnpm-lock.yaml"], RendererDir(root), AppDir(root)]
  }

  /** A path as the platform writes it, components joined by `path.sep`. */
  function Native(isWin: bool, p: Path): string
  {
    JoinWith(Separator(isWin), p)
  }

  /** Arguments of the type-check step: `pnpm -s exec tsc -p <renderer>/tsconfig.json`. */
  function TscArgs(isWin: bool, root: Path): seq<string>
  {
    ["-s", "exec", "tsc", "-p", Native(isWin, RendererDir(root) + ["tsconfig.json"])]
  }

  /** Arguments of the bundling step: `pnpm exec rolldown -c <app>/rolldown.config.mjs`. */
  function RolldownArgs(isWin: bool, root: Path): seq<string>
  {
    ["exec", "rolldown", "-c", Native(isWin, AppDir(root) + ["rolldown.config.mjs"])]
  }

  /** The two build steps, in the order they run. */
  datatype Step = TypeCheck | Bundle

  /** How one run of the script ends. */
  datatype Outcome =
    | KeptPrebuilt                          // sources missing, bundle present
    | NoPrebuilt                            // sources missing, no bundle
    | HashFailed(error: IoError)            // `computeHash` rejected
    | UpToDate                              // stored hash matches and bundle present
    | BuildFailed(step: Step, code: int)    // a step ended with a non-zero status
    | BuildThrew(step: Step)                // a step could not be launched
    | Rebuilt(hash: string)                 // both steps succeeded; `hash` is stored

  /** The process exit code: `process.exit` where the script calls it, 1 for
      an exception or rejection nobody catches, 0 when the script runs to its end. */
  function ExitCode(o: Outcome): int
  {
    match o
    case KeptPrebuilt => 0
    case NoPrebuilt => 1
    case HashFailed(_) => 1
    case UpToDate => 0
    case BuildFailed(_, code) => code
    case BuildThrew(_) => 1
    case Rebuilt(_) => 0
  }

  predicate SourcesExist(tree: FileSystem, root: Path)
  {
    RendererDir(root) in tree && AppDir(root) in tree
  }

  /** The skip test: the hash file exists, its trimmed text is the fresh
      hash, and the bundle exists. */
  predicate Fresh(tree: FileSystem, stored: Option<string>, root: Path, current: string)
  {
    stored.Some? && Trim(stored.value) == current && OutputFile(root) in tree
  }

  /** The two `run("pnpm", …)` steps and what follows them. */
  function Build(root: Path, host: Host, spawn: (string, seq<string>, bool) -> SpawnResult,
                 current: string): (o: Outcome)
    ensures o.Rebuilt? || o.BuildFailed? || o.BuildThrew?
    ensures o.Rebuilt? ==> o.hash == current
    ensures o.BuildFailed? ==> o.code != 0
  {
    var pnpm := Resolve("pnpm", host);
    var shell := NeedsShell(host.isWin, pnpm);
    match StatusRule(spawn(pnpm, TscArgs(host.isWin, root), shell))
    case Exited(code) => BuildFailed(TypeCheck, code)
    case Threw => BuildThrew(TypeCheck)
    case Continued =>
      match StatusRule(spawn(pnpm, RolldownArgs(host.isWin, root), shell))
      case Exited(code) => BuildFailed(Bundle, code)
      case Threw => BuildThrew(Bundle)
      case Continued => Rebuilt(current)
  }

  /** How the script ends, given the tree, the hash file's text (`None` when
      it does not exist), SHA-256, the sort comparator, the host and what
      each spawned process reports. */
  function Gate(tree: FileSystem, stored: Option<string>, root: Path,
                sha: seq<byte> -> seq<byte>, leq: (string, string) -> bool,
                host: Host, spawn: (string, seq<string>, bool) -> SpawnResult): (o: Outcome)
    ensures o.Rebuilt? ==> Fingerprint(tree, root, InputPaths(root), sha, leq) == Ok(o.hash)
    ensures o == UpToDate || o == KeptPrebuilt ==> OutputFile(root) in tree
  {
    if !SourcesExist(tree, root) then
      if OutputFile(root) in tree then KeptPrebuilt else NoPrebuilt
    else
      match Fingerprint(tree, root, InputPaths(root), sha, leq)
      case Err(e) => HashFailed(e)
      case Ok(current) =>
        if Fresh(tree, stored, root, current) then UpToDate else Build(root, host, spawn, current)
  }

  /** The hash file's text once the script has ended with `o`. */
  function StoredAfter(stored: Option<string>, o: Outcome): Option<string>
  {
    if o.Rebuilt? then Some(o.hash + "\n") else stored
  }

  /** The repository as the script sees it: the tree it reads and the one
      slot it writes, the text of `.bundle.hash`. */
  class Workspace {
    const tree: FileSystem
    var stored: Option<string>

    constructor(tree: FileSystem, stored: Option<string>)
      ensures this.tree == tree && this.stored == stored
    {
      this.tree := tree;
      this.stored := stored;
    }
  }

  /** The script's top level, from the source check to the hash-file write. */
  method BundleA2ui(ws: Workspace, root: Path,
                    sha: seq<byte> -> seq<byte>, leq: (string, string) -> bool,
                    host: Host, spawn: (string, seq<string>, bool) -> SpawnResult)
    returns (o: Outcome)
    modifies ws`stored
    ensures o == Gate(ws.tree, old(ws.stored), root, sha, leq, host, spawn)
    ensures ws.stored == StoredAfter(old(ws.stored), o)
  {
    var outputFile := OutputFile(root);
    if !(RendererDir(root) in ws.tree && AppDir(root) in ws.tree) {
      if outputFile in ws.tree {
        return KeptPrebuilt;
      }
      return NoPrebuilt;
    }
    var current := ComputeHash(ws.tree, root, InputPaths(root), sha, leq);
    if current.Err? {
      return HashFailed(current.error);
    }
    var h := current.value;
    if ws.stored.Some? {
      var previous := Trim(ws.stored.value);
      if previous == h && outputFile in ws.tree {
        return UpToDate;
      }
    }
    var first := Run("pnpm", TscArgs(host.isWin, root), host, spawn);
    match first {
      case Exited(code) => return BuildFailed(TypeCheck, code);
      case Threw => return BuildThrew(TypeCheck);
      case Continued =>
    }
    var second := Run("pnpm", RolldownArgs(host.isWin, root), host, spawn);
    match second {
      case Exited(code) => return BuildFailed(Bundle, code);
      case Threw => return BuildThrew(Bundle);
      case Continued =>
    }
    ws.stored := Some(h + "\n");
    o := Rebuilt(h);
  }

  /** With a source directory missing the script exits 0 exactly when the
      bundle exists; it hashes nothing, runs nothing and writes nothing, so
      the outcome does not depend on SHA-256, the comparator, the host, the
      spawned processes or the hash file. */
  lemma MissingSourcesFallBack(tree: FileSystem, stored: Option<string>, root: Path,
                               sha: seq<byte> -> seq<byte>, leq: (string, string) -> bool,
                               host: Host, spawn: (string, seq<string>, bool) -> SpawnResult,
                               stored': Option<string>, sha': seq<byte> -> seq<byte>,
                               leq': (string, string) -> bool, host': Host,
                               spawn': (string, seq<string>, bool) -> SpawnResult)
    requires !SourcesExist(tree, root)
    ensures var o := Gate(tree, stored, root, sha, leq, host, spawn);
      && (o == KeptPrebuilt || o == NoPrebuilt)
      && (ExitCode(o) == 0 <==> OutputFile(root) in tree)
      && StoredAfter(stored, o) == stored
      && o == Gate(tree, stored', root, sha', leq', host', spawn')
  {
  }

  /** With the sources present the script skips exactly when the hash file
      exists, its trimmed text equals the fresh hash and the bundle exists;
      otherwise, once the hash is computed, it starts the build. */
  lemma SkipExactlyWhenFresh(tree: FileSystem, stored: Option<string>, root: Path,
                             sha: seq<byte> -> seq<byte>, leq: (string, string) -> bool,
                             host: Host, spawn: (string, seq<string>, bool) -> SpawnResult)
    requires SourcesExist(tree, root)
    ensures var o := Gate(tree, stored, root, sha, leq, host, spawn);
      var fp := Fingerprint(tree, root, InputPaths(root), sha, leq);
      && (o == UpToDate <==> fp.Ok? && stored.Some? && Trim(stored.value) == fp.value && OutputFile(root) in tree)
      && (fp.Err? <==> o.HashFailed?)
      && (fp.Ok? && o != UpToDate ==> o.BuildFailed? || o.BuildThrew? || o.Rebuilt?)
  {
  }

  /** The hash file is written only when both build steps returned normally,
      and then it holds the fresh hash and a newline; a failed build leaves
      it as it was. */
  lemma HashWrittenOnlyAfterBuild(tree: FileSystem, stored: Option<string>, root: Path,
                                  sha: seq<byte> -> seq<byte>, leq: (string, string) -> bool,
                                  host: Host, spawn: (string, seq<string>, bool) -> SpawnResult)
    ensures var o := Gate(tree, stored, root, sha, leq, host, spawn);
      var pnpm := Resolve("pnpm", host);
      var shell := NeedsShell(host.isWin, pnpm);
      && (o.Rebuilt? <==>
            && SourcesExist(tree, root)
            && Fingerprint(tree, root, InputPaths(root), sha, leq).Ok?
            && !Fresh(tree, stored, root, Fingerprint(tree, root, InputPaths(root), sha, leq).value)
            && spawn(pnpm, TscArgs(host.isWin, root), shell) == Finished(Some(0))
            && spawn(pnpm, RolldownArgs(host.isWin, root), shell) == Finished(Some(0)))
      && (o.Rebuilt? ==> StoredAfter(stored, o) == Some(Fingerprint(tree, root, InputPaths(root), sha, leq).value + "\n"))
      && (!o.Rebuilt? ==> StoredAfter(stored, o) == stored)
  {
  }

  /** The script exits 0 exactly when it kept the prebuilt bundle, skipped,
      or rebuilt; every failure, including a build step killed by a signal,
      exits non-zero. */
  lemma ExitZeroOnlyOnSuccess(tree: FileSystem, stored: Option<string>, root: Path,
                              sha: seq<byte> -> seq<byte>, leq: (string, string) -> bool,
                              host: Host, spawn: (string, seq<string>, bool) -> SpawnResult)
    ensures var o := Gate(tree, stored, root, sha, leq, host, spawn);
      ExitCode(o) == 0 <==> o == KeptPrebuilt || o == UpToDate || o.Rebuilt?
  {
  }

  lemma HexIsNotWhitespace(h: string)
    requires forall i :: 0 <= i < |h| ==> h[i] in HexDigits
    ensures forall i :: 0 <= i < |h| ==> !IsJsWhitespace(h[i])
  {
  }

  /** Reading back what a rebuild wrote and trimming it gives the hash again.
      So running the script once more skips, on any tree `tree2` that
      holds the bundle and agrees with the tree of the first run at and
      below every input, whatever the build did elsewhere. */
  lemma RerunSkips(tree: FileSystem, tree2: FileSystem, stored: Option<string>, root: Path,
                   sha: seq<byte> -> seq<byte>, leq: (string, string) -> bool,
                   host: Host, spawn: (string, seq<string>, bool) -> SpawnResult,
                   host': Host, spawn': (string, seq<string>, bool) -> SpawnResult)
    requires Gate(tree, stored, root, sha, leq, host, spawn).Rebuilt?
    requires forall i :: 0 <= i < |InputPaths(root)| ==> AgreeBelow(tree, tree2, InputPaths(root)[i])
    requires OutputFile(root) in tree2
    ensures var o := Gate(tree, stored, root, sha, leq, host, spawn);
      Gate(tree2, StoredAfter(stored, o), root, sha, leq, host', spawn') == UpToDate
  {
    var o := Gate(tree, stored, root, sha, leq, host, spawn);
    var h := o.hash;
    var inputs := InputPaths(root);
    assert Fingerprint(tree, root, inputs, sha, leq) == Ok(h);
    FingerprintLocal(tree, tree2, root, inputs, sha, leq);
    assert SourcesExist(tree2, root) by {
      assert AgreeBelow(tree, tree2, inputs[2]) && AgreeBelow(tree, tree2, inputs[3]);
      assert Lookup(tree, RendererDir(root)) == Lookup(tree2, RendererDir(root));
      assert Lookup(tree, AppDir(root)) == Lookup(tree2, AppDir(root));
    }
    HexIsNotWhitespace(h);
    TrimLine(h);
  }

  /** No input lies at or above a path under `src`, where the bundle is written. */
  lemma SrcOutsideInputs(root: Path, q: Path, i: nat)
    requires i < |InputPaths(root)| && InputPaths(root)[i] <= q
    ensures !(root + ["src"] <= q)
  {
    assert q[|root|] == InputPaths(root)[i][|root|] != "src";
  }

  /** The usual sequence: a rebuild whose steps change the tree only under
      `src` (writing the bundle there), then a second run on that tree,
      which skips. */
  lemma RerunAfterBuildSkips(tree: FileSystem, tree2: FileSystem, stored: Option<string>, root: Path,
                             sha: seq<byte> -> seq<byte>, leq: (string, string) -> bool,
                             host: Host, spawn: (string, seq<string>, bool) -> SpawnResult,
                             host': Host, spawn': (string, seq<string>, bool) -> SpawnResult)
    requires Gate(tree, stored, root, sha, leq, host, spawn).Rebuilt?
    requires forall q :: Lookup(tree, q) != Lookup(tree2, q) ==> root + ["src"] <= q
    requires OutputFile(root) in tree2
    ensures var o := Gate(tree, stored, root, sha, leq, host, spawn);
      Gate(tree2, StoredAfter(stored, o), root, sha, leq, host', spawn') == UpToDate
  {
    var inputs := InputPaths(root);
    forall i | 0 <= i < |inputs| ensures AgreeBelow(tree, tree2, inputs[i]) {
      forall q | inputs[i] <= q ensures Lookup(tree, q) == Lookup(tree2, q) {
        SrcOutsideInputs(root, q, i);
      }
    }
    RerunSkips(tree, tree2, stored, root, sha, leq, host, spawn, host', spawn');
  }
}

=== FILE: runner.dfy ===
/** `which` and `run`: find a command on the search path, decide whether
    it must go through the command interpreter, and turn the child's exit
    status into the script's next step. */
module Runner {
  import opened Wrappers
  import opened Text

  /** What `which` reads from its host: whether it runs on Windows, `PATH`,
      `PATHEXT`, and which of its candidates exist. */
  datatype Host = Host(isWin: bool, pathEnv: Option<string>, pathExt: Option<string>, existing: set<string>)

  /** `path.delimiter` */
  function Delimiter(isWin: bool): char
  {
    if isWin then ';' else ':'
  }

  /** `path.sep` */
  function Separator(isWin: bool): char
  {
    if isWin then '\\' else '/'
  }

  const DefaultPathExt: string := ".EXE;.CMD;.BAT;.COM"

  /** The non-empty pieces of `PATH` (empty when unset) between delimiters. */
  function SearchDirs(host: Host): (dirs: seq<string>)
    ensures forall d :: d in dirs <==> d in Split(host.pathEnv.GetOr(""), Delimiter(host.isWin)) && d != ""
  {
    NonEmpty(Split(host.pathEnv.GetOr(""), Delimiter(host.isWin)))
  }

  /** On Windows the non-empty pieces of `PATHEXT` (or of its default),
      elsewhere the single empty extension. */
  function SearchExts(host: Host): (exts: seq<string>)
    ensures !host.isWin ==> exts == [""]
    ensures host.isWin ==> forall e :: e in exts <==> e in Split(host.pathExt.GetOr(DefaultPathExt), ';') && e != ""
  {
    if host.isWin then NonEmpty(Split(host.pathExt.GetOr(DefaultPathExt), ';')) else [""]
  }

  /** With `PATH` written as its pieces joined by the delimiter, the search
      directories are those pieces in their order, the empty ones dropped. */
  lemma SearchDirsInOrder(host: Host, pieces: seq<string>)
    requires |pieces| >= 1
    requires forall i :: 0 <= i < |pieces| ==> Delimiter(host.isWin) !in pieces[i]
    requires host.pathEnv == Some(JoinWith(Delimiter(host.isWin), pieces))
    ensures SearchDirs(host) == NonEmpty(pieces)
  {
    SplitJoin(pieces, Delimiter(host.isWin));
  }

  /** For instance `PATH=a::b` searches `a` and then `b`. */
  lemma SearchDirsSkipsEmpty(host: Host, a: string, b: string)
    requires a != "" && b != ""
    requires Delimiter(host.isWin) !in a && Delimiter(host.isWin) !in b
    requires host.pathEnv == Some(a + [Delimiter(host.isWin)] + [Delimiter(host.isWin)] + b)
    ensures SearchDirs(host) == [a, b]
  {
    var d := Delimiter(host.isWin);
    var pieces := [a, "", b];
    assert JoinWith(d, pieces) == a + [d] + [d] + b by {
      assert pieces[1..] == ["", b] && pieces[1..][1..] == [b];
      assert JoinWith(d, ["", b]) == "" + [d] + b == [d] + b;
    }
    SearchDirsInOrder(host, pieces);
    assert pieces == [a] + [""] + [b];
    NonEmptyAppend([a] + [""], [b]);
    NonEmptyAppend([a], [""]);
    NonEmptyOne(a);
    NonEmptyOne("");
    NonEmptyOne(b);
  }

  /** On Windows, with `PATHEXT` written as its pieces joined by `;`, the
      extensions are those pieces in their order, the empty ones dropped. */
  lemma SearchExtsInOrder(host: Host, pieces: seq<string>)
    requires host.isWin && |pieces| >= 1
    requires forall i :: 0 <= i < |pieces| ==> ';' !in pieces[i]
    requires host.pathExt.GetOr(DefaultPathExt) == JoinWith(';', pieces)
    ensures SearchExts(host) == NonEmpty(pieces)
  {
    SplitJoin(pieces, ';');
  }

  /** On Windows with `PATHEXT` unset the extensions are tried in the order
      `.EXE`, `.CMD`, `.BAT`, `.COM`. */
  lemma SearchExtsDefault(host: Host)
    requires host.isWin && host.pathExt == None
    ensures SearchExts(host) == [".EXE", ".CMD", ".BAT", ".COM"]
  {
    var pieces := [".EXE", ".CMD", ".BAT", ".COM"];
    DefaultPieces();
    SearchExtsInOrder(host, pieces);
    DefaultKept(pieces);
  }

  lemma DefaultPieces()
    ensures DefaultPathExt == JoinWith(';', [".EXE", ".CMD", ".BAT", ".COM"])
    ensures forall i :: 0 <= i < 4 ==> ';' !in [".EXE", ".CMD", ".BAT", ".COM"][i]
  {
    JoinFour(';', ".EXE", ".CMD", ".BAT", ".COM");
  }

  lemma DefaultKept(pieces: seq<string>)
    requires pieces == [".EXE", ".CMD", ".BAT", ".COM"]
    ensures NonEmpty(pieces) == pieces
  {
    assert |pieces[0]| == |pieces[1]| == |pieces[2]| == |pieces[3]| == 4;
  }

  lemma JoinFour(d: char, a: string, b: string, c: string, e: string)
    ensures JoinWith(d, [a, b, c, e]) == a + [d] + b + [d] + c + [d] + e
  {
    var p := [a, b, c, e];
    assert p[1..] == [b, c, e] && p[1..][1..] == [c, e] && p[1..][1..][1..] == [e];
    assert JoinWith(d, [c, e]) == c + [d] + e;
    assert JoinWith(d, [b, c, e]) == b + [d] + (c + [d] + e);
  }

  /** `path.join(dir, file)` */
  function JoinPath(isWin: bool, dir: string, file: string): string
  {
    dir + [Separator(isWin)] + file
  }

  /** The candidates of one directory, one per extension in order. */
  function DirCandidates(isWin: bool, dir: string, name: string, exts: seq<string>): seq<string>
  {
    seq(|exts|, j requires 0 <= j < |exts| => JoinPath(isWin, dir, name + exts[j]))
  }

  /** Every `dir/name+ext`, directories outermost. */
  function Candidates(isWin: bool, dirs: seq<string>, name: string, exts: seq<string>): seq<string>
  {
    if dirs == [] then [] else DirCandidates(isWin, dirs[0], name, exts) + Candidates(isWin, dirs[1..], name, exts)
  }

  lemma {:induction false} CandidatesLength(isWin: bool, dirs: seq<string>, name: string, exts: seq<string>)
    ensures |Candidates(isWin, dirs, name, exts)| == |dirs| * |exts|
  {
    if dirs != [] {
      CandidatesLength(isWin, dirs[1..], name, exts);
      assert |dirs| * |exts| == |exts| + (|dirs| - 1) * |exts|;
    }
  }

  lemma {:induction false} CandidatesAppend(isWin: bool, d1: seq<string>, d2: seq<string>, name: string, exts: seq<string>)
    ensures Candidates(isWin, d1 + d2, name, exts) == Candidates(isWin, d1, name, exts) + Candidates(isWin, d2, name, exts)
  {
    if d1 == [] {
      assert d1 + d2 == d2;
    } else {
      assert (d1 + d2)[0] == d1[0] && (d1 + d2)[1..] == d1[1..] + d2;
      CandidatesAppend(isWin, d1[1..], d2, name, exts);
    }
  }

  lemma IndexBound(i: nat, j: nat, n: nat, m: nat)
    requires i < n && j < m
    ensures i * m + j < n * m
  {
    assert (i + 1) * m <= n * m;
  }

  /** The search order: all extensions of the i-th directory come after
      those of every earlier directory, in extension order. */
  lemma CandidateAt(isWin: bool, dirs: seq<string>, name: string, exts: seq<string>, i: nat, j: nat)
    requires i < |dirs| && j < |exts|
    ensures |Candidates(isWin, dirs[..i], name, exts)| == i * |exts|
    ensures i * |exts| + j < |Candidates(isWin, dirs, name, exts)|
    ensures Candidates(isWin, dirs, name, exts)[i * |exts| + j] == JoinPath(isWin, dirs[i], name + exts[j])
  {
    CandidatesLength(isWin, dirs, name, exts);
    CandidatesLength(isWin, dirs[..i], name, exts);
    IndexBound(i, j, |dirs|, |exts|);
    CandidatesAppend(isWin, dirs[..i], dirs[i..], name, exts);
    assert dirs[..i] + dirs[i..] == dirs;
    assert dirs[i..][0] == dirs[i];
  }

  /** The position of the first candidate that exists, or the number of candidates. */
  function FirstExisting(cands: seq<string>, existing: set<string>): (k: nat)
    ensures k <= |cands|
    ensures forall i :: 0 <= i < k ==> cands[i] !in existing
    ensures k < |cands| ==> cands[k] in existing
  {
    if cands == [] || cands[0] in existing then 0 else 1 + FirstExisting(cands[1..], existing)
  }

  /** Every path `which(name)` tries on this host, in order. */
  function AllCandidates(name: string, host: Host): seq<string>
  {
    Candidates(host.isWin, SearchDirs(host), name, SearchExts(host))
  }

  /** The value of `which(name)`: the first candidate that exists, else `name` itself. */
  function Resolve(name: string, host: Host): (r: string)
    ensures r == name || (r in AllCandidates(name, host) && r in host.existing)
  {
    var cands := AllCandidates(name, host);
    var k := FirstExisting(cands, host.existing);
    if k < |cands| then cands[k] else name
  }

  /** What `which` promises: an existing candidate with no existing candidate
      before it in the search order, or `name` when none exists. */
  lemma ResolveIsFirstHit(name: string, host: Host)
    ensures var cands := AllCandidates(name, host);
      || (exists k :: 0 <= k < |cands| && Resolve(name, host) == cands[k] && cands[k] in host.existing
            && forall i :: 0 <= i < k ==> cands[i] !in host.existing)
      || (Resolve(name, host) == name && forall c :: c in cands ==> c !in host.existing)
  {
    var cands := AllCandidates(name, host);
    var k := FirstExisting(cands, host.existing);
    if k == |cands| {
      forall c | c in cands ensures c !in host.existing {
        var i :| 0 <= i < |cands| && cands[i] == c;
      }
    } else {
      assert Resolve(name, host) == cands[k];
      assert 0 <= k < |cands| && Resolve(name, host) == cands[k] && cands[k] in host.existing
        && forall i :: 0 <= i < k ==> cands[i] !in host.existing;
    }
  }

  /** The candidate at (i, j) is the first that exists when no candidate of
      an earlier directory, nor of an earlier extension in the same
      directory, exists. */
  lemma FirstHitAt(isWin: bool, dirs: seq<string>, name: string, exts: seq<string>,
                   existing: set<string>, i: nat, j: nat)
    requires i < |dirs| && j < |exts|
    requires forall c :: c in Candidates(isWin, dirs[..i], name, exts) ==> c !in existing
    requires forall jj :: 0 <= jj < j ==> JoinPath(isWin, dirs[i], name + exts[jj]) !in existing
    requires JoinPath(isWin, dirs[i], name + exts[j]) in existing
    ensures FirstExisting(Candidates(isWin, dirs, name, exts), existing) == i * |exts| + j
  {
    var cands := Candidates(isWin, dirs, name, exts);
    CandidateAt(isWin, dirs, name, exts, i, j);
    CandidatesAppend(isWin, dirs[..i], dirs[i..], name, exts);
    assert dirs[..i] + dirs[i..] == dirs;
    var k := i * |exts| + j;
    forall m | 0 <= m < k ensures cands[m] !in existing {
      if m < i * |exts| {
        assert cands[m] in Candidates(isWin, dirs[..i], name, exts);
      } else {
        CandidateAt(isWin, dirs, name, exts, i, m - i * |exts|);
      }
    }
  }

  /** Finishing the extensions of directory i without a hit extends the
      part of the search known to have no hit. */
  lemma NoHitThrough(isWin: bool, dirs: seq<string>, name: string, exts: seq<string>,
                     existing: set<string>, i: nat)
    requires i < |dirs|
    requires forall c :: c in Candidates(isWin, dirs[..i], name, exts) ==> c !in existing
    requires forall jj :: 0 <= jj < |exts| ==> JoinPath(isWin, dirs[i], name + exts[jj]) !in existing
    ensures forall c :: c in Candidates(isWin, dirs[..i + 1], name, exts) ==> c !in existing
  {
    CandidatesAppend(isWin, dirs[..i], [dirs[i]], name, exts);
    assert dirs[..i + 1] == dirs[..i] + [dirs[i]];
    assert Candidates(isWin, [dirs[i]], name, exts) == DirCandidates(isWin, dirs[i], name, exts) by {
      assert [dirs[i]][1..] == [];
    }
  }

  /** A hit at (i, j) after misses everywhere before it is what `which` returns. */
  lemma HitResolves(name: string, host: Host, i: nat, j: nat)
    requires i < |SearchDirs(host)| && j < |SearchExts(host)|
    requires forall c :: c in Candidates(host.isWin, SearchDirs(host)[..i], name, SearchExts(host)) ==> c !in host.existing
    requires forall jj :: 0 <= jj < j ==> JoinPath(host.isWin, SearchDirs(host)[i], name + SearchExts(host)[jj]) !in host.existing
    requires JoinPath(host.isWin, SearchDirs(host)[i], name + SearchExts(host)[j]) in host.existing
    ensures Resolve(name, host) == JoinPath(host.isWin, SearchDirs(host)[i], name + SearchExts(host)[j])
  {
    var dirs, exts := SearchDirs(host), SearchExts(host);
    FirstHitAt(host.isWin, dirs, name, exts, host.existing, i, j);
    CandidateAt(host.isWin, dirs, name, exts, i, j);
  }

  /** With no candidate existing, `which` returns the name unchanged. */
  lemma MissResolves(name: string, host: Host)
    requires forall c :: c in AllCandidates(name, host) ==> c !in host.existing
    ensures Resolve(name, host) == name
  {
    var cands := AllCandidates(name, host);
    assert forall i :: 0 <= i < |cands| ==> cands[i] !in host.existing;
  }

  /** `which(name)` with its two loops and early return. */
  method Which(name: string, host: Host) returns (r: string)
    ensures r == Resolve(name, host)
  {
    var dirs, exts := SearchDirs(host), SearchExts(host);
    for i := 0 to |dirs|
      invariant forall c :: c in Candidates(host.isWin, dirs[..i], name, exts) ==> c !in host.existing
    {
      for j := 0 to |exts|
        invariant forall jj :: 0 <= jj < j ==> JoinPath(host.isWin, dirs[i], name + exts[jj]) !in host.existing
      {
        var candidate := JoinPath(host.isWin, dirs[i], name + exts[j]);
        if candidate in host.existing {
          HitResolves(name, host, i, j);
          return candidate;
        }
      }
      NoHitThrough(host.isWin, dirs, name, exts, host.existing, i);
    }
    assert dirs[..|dirs|] == dirs;
    MissResolves(name, host);
    r := name;
  }

  /** What `spawnSync` reports: the launch failed (`result.error`), or the
      child ended with a status (`null` when a signal ended it). */
  datatype SpawnResult = LaunchFailed | Finished(status: Option<int>)

  /** What `run` does next: return to the caller, `process.exit(code)`, or throw. */
  datatype RunOutcome = Continued | Exited(code: int) | Threw

  /** The status rule of `run`: a launch error is thrown; otherwise the
      script goes on only on status 0 and exits with `status ?? 1`. */
  function StatusRule(res: SpawnResult): (o: RunOutcome)
    ensures o == Continued <==> res == Finished(Some(0))
    ensures o == Threw <==> res == LaunchFailed
    ensures o.Exited? ==> o.code != 0 && o.code == res.status.GetOr(1)
  {
    match res
    case LaunchFailed => Threw
    case Finished(status) =>
      if status.GetOr(1) != 0 then Exited(status.GetOr(1)) else Continued
  }

  predicate IsSeparator(isWin: bool, c: char)
  {
    c == '/' || (isWin && c == '\\')
  }

  /** The last component of a path: what follows its last separator. */
  function BaseName(isWin: bool, p: string): (b: string)
    ensures |b| <= |p| && b == p[|p| - |b|..]
    ensures forall i :: 0 <= i < |b| ==> !IsSeparator(isWin, b[i])
    ensures |b| < |p| ==> IsSeparator(isWin, p[|p| - |b| - 1])
  {
    if p == [] || IsSeparator(isWin, p[|p| - 1]) then []
    else BaseName(isWin, p[..|p| - 1]) + [p[|p| - 1]]
  }

  /** The position of the last dot. */
  function LastDot(b: string): (k: Option<nat>)
    ensures k.Some? ==> k.value < |b| && b[k.value] == '.' && '.' !in b[k.value + 1..]
    ensures k.None? ==> '.' !in b
  {
    if b == [] then None
    else if b[|b| - 1] == '.' then Some(|b| - 1)
    else
      var k := LastDot(b[..|b| - 1]);
      assert k.Some? ==> b[k.value + 1..] == b[..|b| - 1][k.value + 1..] + [b[|b| - 1]];
      assert k.None? ==> b == b[..|b| - 1] + [b[|b| - 1]];
      k
  }

  /** `path.extname(p)`: from the last dot of the last component to its end,
      empty when that component has no dot, starts with its only one, or
      is `..`. */
  function ExtName(isWin: bool, p: string): (e: string)
    ensures var b := BaseName(isWin, p);
      e != "" <==> b != ".." && HasInnerDot(b)
    ensures var b := BaseName(isWin, p);
      |e| <= |b| && e == b[|b| - |e|..]
    ensures e != "" ==> e[0] == '.' && '.' !in e[1..]
  {
    ComponentExt(BaseName(isWin, p))
  }

  /** The extension of one path component. */
  function ComponentExt(b: string): (e: string)
    ensures e != "" <==> b != ".." && HasInnerDot(b)
    ensures |e| <= |b| && e == b[|b| - |e|..]
    ensures e != "" ==> e[0] == '.' && '.' !in e[1..]
  {
    var k := LastDot(b);
    DotAfterStart(b);
    if k.None? || k.value == 0 || b == ".." then ""
    else
      assert b[k.value..][1..] == b[k.value + 1..];
      b[k.value..]
  }

  /** A path component holds a dot after its first character. */
  predicate HasInnerDot(b: string)
  {
    exists k :: 0 < k < |b| && b[k] == '.'
  }

  /** A component has a dot after its first character exactly when its last
      dot is not in front. */
  lemma DotAfterStart(b: string)
    ensures HasInnerDot(b) <==> LastDot(b).Some? && LastDot(b).value > 0
  {
    if k :| 0 < k < |b| && b[k] == '.' {
      assert b[k] in b;
    }
  }

  /** The extension is a suffix of the whole path, not only of its last component. */
  lemma ExtNameIsSuffix(isWin: bool, p: string)
    ensures var e := ExtName(isWin, p); |e| <= |p| && e == p[|p| - |e|..]
  {
    var b, e := BaseName(isWin, p), ExtName(isWin, p);
    assert e == p[|p| - |b|..][|b| - |e|..];
  }

  /** The shell rule: on Windows only, an extension of `.cmd`, `.bat` or `.com`
      in any letter case. */
  function NeedsShell(isWin: bool, resolved: string): bool
  {
    isWin && ShellExtension(LowerAscii(ExtName(isWin, resolved)))
  }

  predicate ShellExtension(e: string)
  {
    e == ".cmd" || e == ".bat" || e == ".com"
  }

  /** A candidate found through a `PATHEXT` extension goes through the shell
      exactly when that extension is `.cmd`, `.bat` or `.com` in any case. */
  lemma ShellForExtension(dir: string, name: string, ext: string)
    requires name != [] && |ext| >= 1 && ext[0] == '.' && '.' !in ext[1..]
    requires forall i :: 0 <= i < |name + ext| ==> !IsSeparator(true, (name + ext)[i])
    ensures NeedsShell(true, JoinPath(true, dir, name + ext)) <==> ShellExtension(LowerAscii(ext))
  {
    BaseNameAfterSeparator(dir, name + ext);
    ExtNameOfDotted(name, ext);
    if name + ext == ".." {
      assert |ext| == 1 && |LowerAscii(ext)| == 1;
      assert ExtName(true, JoinPath(true, dir, name + ext)) == "";
    } else {
      assert ExtName(true, JoinPath(true, dir, name + ext)) == ext;
    }
  }

  /** The extension of a dot-free name followed by a one-dot suffix is that suffix. */
  lemma ExtNameOfDotted(name: string, ext: string)
    requires name != [] && |ext| >= 1 && ext[0] == '.' && '.' !in ext[1..]
    ensures var b := name + ext; LastDot(b) == Some(|name|) && b[|name|..] == ext
  {
    var b, k := name + ext, |name|;
    assert b[k] == '.' && b[k + 1..] == ext[1..];
  }

  lemma BaseNameAfterSeparator(dir: string, file: string)
    requires forall i :: 0 <= i < |file| ==> !IsSeparator(true, file[i])
    ensures BaseName(true, JoinPath(true, dir, file)) == file
  {
    var p := JoinPath(true, dir, file);
    var b := BaseName(true, p);
    assert p[|p| - |file| - 1] == '\\';
    assert p[|p| - |file|..] == file;
  }

  /** A path whose last component has no dot, such as the bare command name
      `which` falls back to, never goes through the shell. */
  lemma NoShellWithoutDot(isWin: bool, p: string)
    requires '.' !in BaseName(isWin, p)
    ensures !NeedsShell(isWin, p)
  {
    assert |LowerAscii(ExtName(isWin, p))| == 0 by {
      assert LastDot(BaseName(isWin, p)).None?;
    }
  }

  /** `run(cmd, args)`: resolve `cmd`, spawn it with `args` (through the shell
      when `NeedsShell`), and apply the status rule to what `spawn` reports. */
  method Run(cmd: string, args: seq<string>, host: Host, spawn: (string, seq<string>, bool) -> SpawnResult)
    returns (o: RunOutcome)
    ensures o == StatusRule(spawn(Resolve(cmd, host), args, NeedsShell(host.isWin, Resolve(cmd, host))))
  {
    var resolved := Which(cmd, host);
    var needsShell := NeedsShell(host.isWin, resolved);
    var result := spawn(resolved, args, needsShell);
    o := StatusRule(result);
  }
}

=== FILE: sorting.dfy ===
/** The order in which the fingerprint visits files: `files.sort` with a
    comparator that compares the forward-slash forms of two paths. */
module Sorting {
  import opened Text
  import opened FileTree

  /** The comparator's key for a path: its components joined by `/`. */
  function SortKey(p: Path): string
  {
    JoinWith('/', p)
  }

  /** The key does not depend on the platform: splitting the native path
      string at the native separator and joining with `/` gives the same key
      whatever the separator, as long as no component contains it. */
  lemma KeyIsPlatformIndependent(p: Path, sep: char)
    requires |p| >= 1
    requires forall i :: 0 <= i < |p| ==> sep !in p[i]
    ensures JoinWith('/', Split(JoinWith(sep, p), sep)) == SortKey(p)
  {
    SplitJoin(p, sep);
  }

  /** Paths as the filesystem produces them: at least one component, none containing `/`. */
  ghost predicate PlainPath(p: Path)
  {
    |p| >= 1 && forall i :: 0 <= i < |p| ==> '/' !in p[i]
  }

  lemma SortKeyInjective(p: Path, q: Path)
    requires PlainPath(p) && PlainPath(q)
    requires SortKey(p) == SortKey(q)
    ensures p == q
  {
    JoinInjective(p, q, '/');
  }

  /** `leq(a, b)` stands for `a.localeCompare(b) <= 0`; a consistent
      comparator makes it a total preorder. */
  ghost predicate TotalPreorder(leq: (string, string) -> bool)
  {
    && (forall a, b :: leq(a, b) || leq(b, a))
    && (forall a, b, c :: leq(a, b) && leq(b, c) ==> leq(a, c))
  }

  /** The comparator reports 0 only for equal strings. */
  ghost predicate Antisymmetric(leq: (string, string) -> bool)
  {
    forall a, b :: leq(a, b) && leq(b, a) ==> a == b
  }

  ghost predicate SortedByKey(s: seq<Path>, leq: (string, string) -> bool)
  {
    forall i, j :: 0 <= i < j < |s| ==> leq(SortKey(s[i]), SortKey(s[j]))
  }

  /** Places `x` after every element whose key is not above its own. */
  function Insert(x: Path, s: seq<Path>, leq: (string, string) -> bool): (r: seq<Path>)
    ensures multiset(r) == multiset(s) + multiset{x}
  {
    if s == [] then [x]
    else
      assert s == [s[0]] + s[1..];
      if leq(SortKey(s[0]), SortKey(x)) then [s[0]] + Insert(x, s[1..], leq)
      else [x] + s
  }

  /** The sort of the file list by key, as a stable
      insertion sort: for a consistent comparator every stable sort,
      the engine's included, gives this result. */
  function SortByKey(s: seq<Path>, leq: (string, string) -> bool): (r: seq<Path>)
    ensures multiset(r) == multiset(s)
  {
    if s == [] then []
    else
      assert s == s[..|s| - 1] + [s[|s| - 1]];
      Insert(s[|s| - 1], SortByKey(s[..|s| - 1], leq), leq)
  }

  /** A sorted list stays sorted under a new head whose key is below every key in it. */
  lemma ConsSorted(h: Path, t: seq<Path>, leq: (string, string) -> bool)
    requires SortedByKey(t, leq)
    requires forall y :: y in t ==> leq(SortKey(h), SortKey(y))
    ensures SortedByKey([h] + t, leq)
  {
    var r := [h] + t;
    forall i, j | 0 <= i < j < |r| ensures leq(SortKey(r[i]), SortKey(r[j])) {
      if i == 0 {
        assert r[j] == t[j - 1] && r[j] in t;
      } else {
        assert r[i] == t[i - 1] && r[j] == t[j - 1];
      }
    }
  }

  /** Every element of an insertion is the inserted one or comes from the list. */
  lemma InsertFrom(x: Path, s: seq<Path>, leq: (string, string) -> bool, y: Path)
    requires y in Insert(x, s, leq)
    ensures y == x || y in s
  {
    assert y in multiset(Insert(x, s, leq));
  }

  lemma {:induction false} InsertSorted(x: Path, s: seq<Path>, leq: (string, string) -> bool)
    requires TotalPreorder(leq) && SortedByKey(s, leq)
    ensures SortedByKey(Insert(x, s, leq), leq)
  {
    if s != [] {
      if leq(SortKey(s[0]), SortKey(x)) {
        var tail := Insert(x, s[1..], leq);
        InsertSorted(x, s[1..], leq);
        forall y | y in tail ensures leq(SortKey(s[0]), SortKey(y)) {
          InsertFrom(x, s[1..], leq, y);
          if y != x {
            var j :| 0 <= j < |s[1..]| && s[1..][j] == y;
            assert s[j + 1] == y;
          }
        }
        ConsSorted(s[0], tail, leq);
      } else {
        forall y | y in s ensures leq(SortKey(x), SortKey(y)) {
          var j :| 0 <= j < |s| && s[j] == y;
          if j > 0 {
            assert leq(SortKey(s[0]), SortKey(s[j]));
          }
        }
        ConsSorted(x, s, leq);
      }
    }
  }

  /** With a consistent comparator the sorted list is ordered by key. */
  lemma {:induction false} SortByKeySorted(s: seq<Path>, leq: (string, string) -> bool)
    requires TotalPreorder(leq)
    ensures SortedByKey(SortByKey(s, leq), leq)
  {
    if s != [] {
      SortByKeySorted(s[..|s| - 1], leq);
      InsertSorted(s[|s| - 1], SortByKey(s[..|s| - 1], leq), leq);
    }
  }

  lemma TailsAgree(a: seq<Path>, b: seq<Path>)
    requires a != [] && b != [] && a[0] == b[0]
    requires multiset(a) == multiset(b)
    ensures multiset(a[1..]) == multiset(b[1..])
  {
    assert a == [a[0]] + a[1..] && b == [b[0]] + b[1..];
    assert multiset(a[1..]) == multiset(a) - multiset{a[0]};
    assert multiset(b[1..]) == multiset(b) - multiset{b[0]};
  }

  lemma HeadsAgree(a: seq<Path>, b: seq<Path>, leq: (string, string) -> bool)
    requires Antisymmetric(leq)
    requires SortedByKey(a, leq) && SortedByKey(b, leq)
    requires a != [] && b != [] && multiset(a) == multiset(b)
    requires forall x, y :: x in a && y in a && SortKey(x) == SortKey(y) ==> x == y
    ensures a[0] == b[0]
  {
    assert a[0] in multiset(b) && b[0] in multiset(a);
    var i :| 0 <= i < |a| && a[i] == b[0];
    var j :| 0 <= j < |b| && b[j] == a[0];
    if i != 0 && j != 0 {
      assert leq(SortKey(a[0]), SortKey(b[0]));
      assert leq(SortKey(b[0]), SortKey(a[0]));
    }
  }

  /** Two lists sorted by a key that tells their elements apart, under an
      antisymmetric order, are equal when they hold the same elements. */
  lemma {:induction false} SortedUnique(a: seq<Path>, b: seq<Path>, leq: (string, string) -> bool)
    requires Antisymmetric(leq)
    requires SortedByKey(a, leq) && SortedByKey(b, leq)
    requires multiset(a) == multiset(b)
    requires forall x, y :: x in a && y in a && SortKey(x) == SortKey(y) ==> x == y
    ensures a == b
  {
    assert |a| == |multiset(a)| == |multiset(b)| == |b|;
    if a != [] {
      HeadsAgree(a, b, leq);
      TailsAgree(a, b);
      assert forall x :: x in a[1..] ==> x in a;
      SortedUnique(a[1..], b[1..], leq);
      assert a == [a[0]] + a[1..] && b == [b[0]] + b[1..];
    }
  }

  /** The sorted file list depends only on which files were found, not on
      the order the walk found them in: this is what makes the digest
      order-stable. */
  lemma SortOrderIndependent(w1: seq<Path>, w2: seq<Path>, leq: (string, string) -> bool)
    requires TotalPreorder(leq) && Antisymmetric(leq)
    requires multiset(w1) == multiset(w2)
    requires forall p :: p in w1 ==> PlainPath(p)
    ensures SortByKey(w1, leq) == SortByKey(w2, leq)
  {
    var a, b := SortByKey(w1, leq), SortByKey(w2, leq);
    SortByKeySorted(w1, leq);
    SortByKeySorted(w2, leq);
    forall x, y | x in a && y in a && SortKey(x) == SortKey(y) ensures x == y {
      assert x in multiset(w1) && y in multiset(w1);
      SortKeyInjective(x, y);
    }
    SortedUnique(a, b, leq);
  }

  /** Where `Insert` places `x`: after the longest run of leading elements
      whose keys are not above its own. */
  function InsertPos(x: Path, s: seq<Path>, leq: (string, string) -> bool): (k: nat)
    ensures k <= |s|
    ensures forall m :: 0 <= m < k ==> leq(SortKey(s[m]), SortKey(x))
    ensures k < |s| ==> !leq(SortKey(s[k]), SortKey(x))
  {
    if s == [] || !leq(SortKey(s[0]), SortKey(x)) then 0 else 1 + InsertPos(x, s[1..], leq)
  }

  /** Inserting splits the list at `InsertPos` and keeps both parts in order. */
  lemma {:induction false} InsertShape(x: Path, s: seq<Path>, leq: (string, string) -> bool)
    ensures var k := InsertPos(x, s, leq); Insert(x, s, leq) == s[..k] + [x] + s[k..]
  {
    if s != [] && leq(SortKey(s[0]), SortKey(x)) {
      var t := s[1..];
      InsertShape(x, t, leq);
      var k := InsertPos(x, t, leq);
      assert Insert(x, s, leq) == [s[0]] + Insert(x, t, leq);
      assert InsertPos(x, s, leq) == k + 1;
      ConsSplit(s, x, k);
    } else {
      assert InsertPos(x, s, leq) == 0;
      assert s[..0] + [x] + s[0..] == [x] + s;
    }
  }

  lemma ConsSplit(s: seq<Path>, x: Path, k: nat)
    requires k < |s|
    ensures [s[0]] + (s[1..][..k] + [x] + s[1..][k..]) == s[..k + 1] + [x] + s[k + 1..]
  {
    assert [s[0]] + s[1..][..k] == s[..k + 1] && s[1..][k..] == s[k + 1..];
  }

  /** In a sorted list, `x` goes after every element whose key is not above its own. */
  lemma {:induction false} InsertPosAfter(x: Path, s: seq<Path>, leq: (string, string) -> bool, m: nat)
    requires TotalPreorder(leq) && SortedByKey(s, leq)
    requires m < |s| && leq(SortKey(s[m]), SortKey(x))
    ensures m < InsertPos(x, s, leq)
  {
    assert leq(SortKey(s[0]), SortKey(x)) by {
      if m > 0 {
        assert leq(SortKey(s[0]), SortKey(s[m]));
      }
    }
    if m > 0 {
      assert SortedByKey(s[1..], leq) by {
        forall i, j | 0 <= i < j < |s[1..]| ensures leq(SortKey(s[1..][i]), SortKey(s[1..][j])) {
          assert s[1..][i] == s[i + 1] && s[1..][j] == s[j + 1];
        }
      }
      assert s[1..][m - 1] == s[m];
      InsertPosAfter(x, s[1..], leq, m - 1);
    }
  }

  /** The sort is stable: under a consistent comparator, when an earlier
      walked path's key is not above a later one's (in particular when the
      comparator ties them), the earlier path comes first in the sorted list. */
  lemma SortStable(w: seq<Path>, leq: (string, string) -> bool, i: nat, j: nat)
    requires TotalPreorder(leq) && i < j < |w|
    requires leq(SortKey(w[i]), SortKey(w[j]))
    ensures var r := SortByKey(w, leq);
      exists a, b :: 0 <= a < b < |r| && r[a] == w[i] && r[b] == w[j]
  {
    var a, b := StablePositions(w, leq, i, j);
  }

  /** The positions in the sorted list that `SortStable` promises. */
  lemma {:induction false} StablePositions(w: seq<Path>, leq: (string, string) -> bool, i: nat, j: nat)
      returns (a: nat, b: nat)
    requires TotalPreorder(leq) && i < j < |w|
    requires leq(SortKey(w[i]), SortKey(w[j]))
    ensures a < b < |SortByKey(w, leq)|
    ensures SortByKey(w, leq)[a] == w[i] && SortByKey(w, leq)[b] == w[j]
  {
    var init, x := w[..|w| - 1], w[|w| - 1];
    var s := SortByKey(init, leq);
    var k := InsertPos(x, s, leq);
    SortShape(w, leq);
    assert w[i] == init[i];
    if j == |w| - 1 {
      a := StableLast(init, x, leq, i);
      b := k;
      PlaceAround(s, x, k, a);
    } else {
      assert w[j] == init[j];
      var a0, b0 := StablePositions(init, leq, i, j);
      PlaceAround(s, x, k, a0);
      PlaceAround(s, x, k, b0);
      a, b := Shifted(a0, k), Shifted(b0, k);
    }
  }

  /** The sort of a non-empty list places its last element into the sort of the rest. */
  lemma SortShape(w: seq<Path>, leq: (string, string) -> bool)
    requires w != []
    ensures var s := SortByKey(w[..|w| - 1], leq); var k := InsertPos(w[|w| - 1], s, leq);
      SortByKey(w, leq) == s[..k] + [w[|w| - 1]] + s[k..]
  {
    InsertShape(w[|w| - 1], SortByKey(w[..|w| - 1], leq), leq);
  }

  /** The position an element of `s` moves to when something is placed at `k`. */
  function Shifted(a: nat, k: nat): nat
  {
    if a < k then a else a + 1
  }

  /** In the sort of a walk, every earlier path whose key is not above that of
      the last walked path sits before the position where that path is placed. */
  lemma StableLast(init: seq<Path>, x: Path, leq: (string, string) -> bool, i: nat) returns (m: nat)
    requires TotalPreorder(leq) && i < |init|
    requires leq(SortKey(init[i]), SortKey(x))
    ensures var s := SortByKey(init, leq);
      m < InsertPos(x, s, leq) && s[m] == init[i]
  {
    var s := SortByKey(init, leq);
    assert init[i] in multiset(s) by {
      assert init[i] in multiset(init);
    }
    m :| 0 <= m < |s| && s[m] == init[i];
    SortByKeySorted(init, leq);
    InsertPosAfter(x, s, leq, m);
  }

  /** Where the elements of `s` end up once `x` is placed at position `k`. */
  lemma PlaceAround(s: seq<Path>, x: Path, k: nat, a: nat)
    requires k <= |s| && a < |s|
    ensures var r := s[..k] + [x] + s[k..];
      |r| == |s| + 1 && r[k] == x && r[Shifted(a, k)] == s[a]
  {
  }

  lemma SortTwo(a: Path, b: Path, leq: (string, string) -> bool)
    requires leq(SortKey(a), SortKey(b))
    ensures SortByKey([a, b], leq) == [a, b]
  {
    var none: seq<Path> := [];
    assert [a, b][..1] == [a] && [a][..0] == none && [a][1..] == none;
    assert SortByKey([a], leq) == [a];
  }

  /** A walk of exactly two paths the comparator ties (`localeCompare`
      returns 0, as it can for distinct strings) is left in walk order,
      whatever the comparator does on other keys. */
  lemma TiesFollowWalkOrder(p: Path, q: Path, leq: (string, string) -> bool)
    requires leq(SortKey(p), SortKey(q)) && leq(SortKey(q), SortKey(p))
    ensures SortByKey([p, q], leq) == [p, q] && SortByKey([q, p], leq) == [q, p]
  {
    SortTwo(p, q, leq);
    SortTwo(q, p, leq);
  }

  /** Antisymmetry cannot be dropped from `SortOrderIndependent`: under a
      total preorder that ties everything, two distinct paths sort
      differently depending on the order they were found in. */
  lemma TiesBreakOrderIndependence(p: Path, q: Path)
    requires p != q
    ensures var leq := (a: string, b: string) => true;
      TotalPreorder(leq) && SortByKey([p, q], leq) != SortByKey([q, p], leq)
  {
    var leq := (a: string, b: string) => true;
    TiesFollowWalkOrder(p, q, leq);
    assert [p, q][0] != [q, p][0];
  }
}

=== FILE: text.dfy ===
/** The JavaScript string operations the script relies on: `split` with a
    one-character separator, `join`, `filter(Boolean)`, `trim` and the
    case-insensitive comparison of a regular expression with the `i` flag. */
module Text {

  /** `s.split(d)`: the pieces between occurrences of `d`; an empty string
      gives one empty piece. */
  function Split(s: string, d: char): (parts: seq<string>)
    ensures |parts| >= 1
    ensures forall i :: 0 <= i < |parts| ==> d !in parts[i]
  {
    if s == [] then [""]
    else
      var rest := Split(s[1..], d);
      if s[0] == d then [""] + rest
      else [[s[0]] + rest[0]] + rest[1..]
  }

  /** `parts.join(d)` */
  function JoinWith(d: char, parts: seq<string>): string
  {
    if parts == [] then ""
    else if |parts| == 1 then parts[0]
    else parts[0] + [d] + JoinWith(d, parts[1..])
  }

  /** Joining the pieces of a split gives back the original string. */
  lemma {:induction false} JoinSplit(s: string, d: char)
    ensures JoinWith(d, Split(s, d)) == s
  {
    if s != [] {
      var rest := Split(s[1..], d);
      JoinSplit(s[1..], d);
      if s[0] == d {
        assert Split(s, d) == [""] + rest;
        assert ([""] + rest)[1..] == rest;
      } else {
        var parts := [[s[0]] + rest[0]] + rest[1..];
        assert Split(s, d) == parts;
        if |rest| > 1 {
          assert parts[1..] == rest[1..];
        }
      }
    }
  }

  lemma {:induction false} SplitWithout(s: string, d: char)
    requires d !in s
    ensures Split(s, d) == [s]
  {
    if s != [] {
      SplitWithout(s[1..], d);
      assert [s[0]] + s[1..] == s;
    }
  }

  lemma {:induction false} SplitAt(a: string, b: string, d: char)
    requires d !in a
    ensures Split(a + [d] + b, d) == [a] + Split(b, d)
  {
    var s := a + [d] + b;
    if a == [] {
      assert s[1..] == b;
    } else {
      assert s[1..] == a[1..] + [d] + b;
      SplitAt(a[1..], b, d);
      assert [a[0]] + a[1..] == a;
    }
  }

  /** Splitting a join gives back the pieces, provided none of them
      contains the separator. */
  lemma {:induction false} SplitJoin(parts: seq<string>, d: char)
    requires |parts| >= 1
    requires forall i :: 0 <= i < |parts| ==> d !in parts[i]
    ensures Split(JoinWith(d, parts), d) == parts
  {
    if |parts| == 1 {
      SplitWithout(parts[0], d);
    } else {
      SplitJoin(parts[1..], d);
      SplitAt(parts[0], JoinWith(d, parts[1..]), d);
    }
  }

  /** Distinct non-empty lists of separator-free pieces join to distinct strings. */
  lemma JoinInjective(p: seq<string>, q: seq<string>, d: char)
    requires |p| >= 1 && |q| >= 1
    requires forall i :: 0 <= i < |p| ==> d !in p[i]
    requires forall i :: 0 <= i < |q| ==> d !in q[i]
    requires JoinWith(d, p) == JoinWith(d, q)
    ensures p == q
  {
    SplitJoin(p, d);
    SplitJoin(q, d);
  }

  /** `parts.filter(Boolean)`: drops the empty strings, keeping the order of the rest. */
  function NonEmpty(parts: seq<string>): (r: seq<string>)
    ensures |r| <= |parts|
    ensures forall x :: x in r <==> x in parts && x != ""
    ensures (forall i :: 0 <= i < |parts| ==> parts[i] != "") ==> r == parts
  {
    if parts == [] then []
    else if parts[0] == "" then NonEmpty(parts[1..])
    else [parts[0]] + NonEmpty(parts[1..])
  }

  /** The filter works piece by piece: it commutes with concatenation, so
      the kept pieces stay in their order and keep their repetitions. */
  lemma {:induction false} NonEmptyAppend(a: seq<string>, b: seq<string>)
    ensures NonEmpty(a + b) == NonEmpty(a) + NonEmpty(b)
  {
    if a == [] {
      assert a + b == b;
    } else {
      assert (a + b)[0] == a[0] && (a + b)[1..] == a[1..] + b;
      NonEmptyAppend(a[1..], b);
    }
  }

  /** One piece is kept exactly when it is not empty. With `NonEmptyAppend`
      this fixes the filter on every list. */
  lemma NonEmptyOne(x: string)
    ensures NonEmpty([x]) == if x == "" then [] else [x]
  {
  }

  /** The characters `String.prototype.trim` removes: ECMAScript WhiteSpace
      (tab, vertical tab, form feed, space, no-break space, byte order mark
      and the space separators of category Zs) and LineTerminator. */
  predicate IsJsWhitespace(c: char)
  {
    c == '\t' || c == '\U{B}' || c == '\U{C}' || c == ' ' || c == '\U{A0}' || c == '\U{FEFF}'
    || c == '\U{1680}' || ('\U{2000}' <= c <= '\U{200A}') || c == '\U{202F}' || c == '\U{205F}'
    || c == '\U{3000}'
    || c == '\n' || c == '\r' || c == '\U{2028}' || c == '\U{2029}'
  }

  /** Every character is whitespace. */
  predicate Blank(s: string)
  {
    forall i :: 0 <= i < |s| ==> IsJsWhitespace(s[i])
  }

  /** `s.trimStart()` */
  function TrimStart(s: string): string
  {
    if s != [] && IsJsWhitespace(s[0]) then TrimStart(s[1..]) else s
  }

  /** `s.trimEnd()` */
  function TrimEnd(s: string): string
  {
    if s != [] && IsJsWhitespace(s[|s| - 1]) then TrimEnd(s[..|s| - 1]) else s
  }

  /** Trimming the start removes a blank prefix and leaves a string that
      does not start with whitespace. */
  lemma {:induction false} TrimStartSpec(s: string)
    ensures |TrimStart(s)| <= |s| && TrimStart(s) == s[|s| - |TrimStart(s)|..]
    ensures Blank(s[..|s| - |TrimStart(s)|])
    ensures TrimStart(s) == [] || !IsJsWhitespace(TrimStart(s)[0])
  {
    if s != [] && IsJsWhitespace(s[0]) {
      var r := TrimStart(s[1..]);
      assert TrimStart(s) == r;
      TrimStartSpec(s[1..]);
      var k := |s| - |r|;
      assert s[1..][k - 1..] == s[k..];
      assert Blank(s[..k]) by {
        forall i | 0 <= i < k ensures IsJsWhitespace(s[i]) {
          if i > 0 {
            assert s[i] == s[1..][..k - 1][i - 1];
          }
        }
      }
    } else {
      assert TrimStart(s) == s;
      assert s[..0] == [];
    }
  }

  /** Trimming the end removes a blank suffix and leaves a string that
      does not end with whitespace. */
  lemma {:induction false} TrimEndSpec(s: string)
    ensures |TrimEnd(s)| <= |s| && TrimEnd(s) == s[..|TrimEnd(s)|]
    ensures Blank(s[|TrimEnd(s)|..])
    ensures TrimEnd(s) == [] || !IsJsWhitespace(TrimEnd(s)[|TrimEnd(s)| - 1])
  {
    if s != [] && IsJsWhitespace(s[|s| - 1]) {
      var r := TrimEnd(s[..|s| - 1]);
      assert TrimEnd(s) == r;
      TrimEndSpec(s[..|s| - 1]);
      assert s[..|s| - 1][..|r|] == s[..|r|];
      assert Blank(s[|r|..]) by {
        forall i | |r| <= i < |s| ensures IsJsWhitespace(s[i]) {
          if i < |s| - 1 {
            assert s[i] == s[..|s| - 1][|r|..][i - |r|];
          }
        }
      }
    } else {
      assert TrimEnd(s) == s;
      assert s[|s|..] == [];
    }
  }

  /** `s.trim()` */
  function Trim(s: string): string
  {
    TrimEnd(TrimStart(s))
  }

  /** Trimming removes the longest leading and trailing runs of whitespace:
      what remains is a slice of the input with only whitespace outside it,
      and it neither starts nor ends with whitespace. */
  lemma TrimSlice(s: string)
    ensures exists a, b :: 0 <= a <= b <= |s| && Trim(s) == s[a..b] && Blank(s[..a]) && Blank(s[b..])
    ensures Trim(s) == [] || (!IsJsWhitespace(Trim(s)[0]) && !IsJsWhitespace(Trim(s)[|Trim(s)| - 1]))
  {
    var t := TrimStart(s);
    var r := TrimEnd(t);
    TrimStartSpec(s);
    TrimEndSpec(t);
    var a, b := |s| - |t|, |s| - |t| + |r|;
    assert 0 <= a <= b <= |s| && r == s[a..b] && Blank(s[..a]) && Blank(s[b..]) by {
      assert t == s[a..];
      assert s[b..] == t[|r|..];
    }
    assert r != [] ==> r[0] == t[0];
  }

  /** Trimming a string without whitespace that is followed by a newline
      gives back the string. */
  lemma TrimLine(h: string)
    requires forall i :: 0 <= i < |h| ==> !IsJsWhitespace(h[i])
    ensures Trim(h + "\n") == h
  {
    var s := h + "\n";
    if h == [] {
      assert TrimStart(s) == TrimStart(s[1..]);
    } else {
      assert TrimStart(s) == s;
      assert s[..|s| - 1] == h;
      assert TrimEnd(s) == TrimEnd(h);
    }
  }

  /** ASCII letters to lower case, every other character unchanged. */
  function LowerAscii(s: string): (r: string)
    ensures |r| == |s|
    ensures forall i :: 0 <= i < |s| ==>
      r[i] == if 'A' <= s[i] <= 'Z' then (s[i] as int + 32) as char else s[i]
  {
    if s == [] then []
    else [if 'A' <= s[0] <= 'Z' then (s[0] as int + 32) as char else s[0]] + LowerAscii(s[1..])
  }
}

=== FILE: wrappers.dfy ===
/** Option and Result values for the absent files and thrown errors of the bundling script. */
module Wrappers {

  datatype Option<+T> = None | Some(value: T) {
    /** `x ?? fallback` */
    function GetOr(fallback: T): T {
      match this
      case Some(v) => v
      case None => fallback
    }
  }

  datatype Result<+T, +E> = Ok(value: T) | Err(error: E)
}
